=== FILE: README.md ===
# Shade: a verified model of its deterministic core

Shade is a live-coding shader tool for the Nintendo Switch. It draws a
full-screen fragment shader, hot-reloads the shader source, and reads frames
back from the GPU. Almost all of it is EGL and OpenGL plumbing. This project
models the deterministic pieces inside that plumbing and proves what they
promise:

- `Text`, `Tokens`: `ReplaceTokens`. It expands the
  `{%textures:begin%} … {%textures:name%} … {%textures:end%}` block of the
  default shader into one copy of the inner template per texture name.
  `std::string::find` and the `replace` loop are modelled with their C++
  meaning. A left-to-right scanning substitution serves as an independent
  reference for the loop.
- `Resolution`: `configureResolution`. It maps the operation mode and the
  halving flag to the render size, the crop rectangle and the GL viewport.
- `Shaders`: `ReloadShader`. GL objects are abstract names. The driver's
  compile and link verdicts are inputs.
- `Textures`: the global texture-unit counter, and the packing of alpha masks
  into white RGBA pixels.
- `Batcher`: the immediate-mode GUI vertex batcher. It has a fixed buffer of
  6144 slots, and it flushes on overflow, on a change of primitive and on a
  change of texture. Draw calls are kept as a log.
- `Readback`: `GrabFrame`, with its two ping-pong pixel buffers and the copy
  that reverses the row order.
- `Startup`: in `main`, the choice between the saved shader and the default
  shader, the shader-file buffer, and the resolution uniform.

Driver results are parameters of the model: the compile and link verdicts,
image decoding, and whether a buffer maps. The operation-mode query and the
contents of the shader file are parameters too.

## Model

| member | source | states |
|---|---|---|
| Text.Find | src/Shade.cpp:24-28 | `find` returns the first index where the pattern occurs; when it returns npos the pattern occurs nowhere |
| Text.Expand | src/Shade.cpp:39-42 | the replace loop ends with no name marker left in the text; it terminates whenever some character is rarer in the token than in the marker |
| Text.LoopNeverExits | src/Shade.cpp:39-42 | when the token itself contains the marker, the marker is still present after any number of loop iterations, so the loop never exits |
| Text.ExpandIsSubst | src/Shade.cpp:39-42 | when the marker's first character is absent from the token and only ever starts a marker in the template, the loop equals the left-to-right substitution of every marker by the token |
| Text.ExpandSingle | src/Shade.cpp:39-42 | a template with a single marker gets the token in its place, and the text around it is unchanged |
| Tokens.ReplaceTokens | src/Shade.cpp:22-49 | if a marker is missing, or the first occurrences are not ordered begin < name < end, the text is returned unchanged |
| Tokens.LocateMarkers | src/Shade.cpp:24-28 | the guard holds exactly when the first occurrences are strictly ordered |
| Tokens.MissingMarkerNoOp | src/Shade.cpp:24-26 | any absent marker leaves the shader text unchanged |
| Tokens.MisorderedMarkersNoOp | src/Shade.cpp:27-28 | markers whose first occurrences are out of order leave the text unchanged |
| Tokens.ExpansionShape | src/Shade.cpp:30-47 | the result is the text before the first begin marker, then one expansion of the inner template per token, then the text after the first end marker |
| Tokens.OverlappingMarkers | src/Shade.cpp:30-31 | when the first end marker starts inside the begin marker, the unsigned length wraps and the template runs to the end of the text |
| Tokens.NoTokensRemovesBlock | src/Shade.cpp:34-46 | an empty token list removes the whole marker block, leaving the prefix followed by the suffix |
| Tokens.ExpandEachInOrder | src/Shade.cpp:36-44 | expansions appear in token order: expanding a concatenated token list concatenates the expansions |
| Tokens.ExpandSamplers | src/Renderer.cpp:190 | the default inner template becomes one `uniform sampler2D` declaration per brace-free texture name, in order |
| Tokens.DefaultShaderExpansion | src/Renderer.cpp:183-191 | in a default shader built around the marker block, the block becomes the sampler declarations and the rest of the shader is kept verbatim |
| Resolution.ConfigureResolution | src/Renderer.cpp:141-180 | handheld and unrecognised modes give 1280x720 and docked gives 1920x1080; halving divides both by 2; the crop is (0,0,w,h); the viewport is (0, 1080-h, w, h) |
| Shaders.Boot | src/Renderer.cpp:282 | once `Open` has created the shared vertex shader, and before any reload, no program is active (`theShader` still holds its initial 0) and the state is well formed and leak-free; the GUI program's objects are not tracked |
| Shaders.ReloadAsWritten | src/Renderer.cpp:466-502 | a compile or link failure returns false with active slot, programs and shaders unchanged; success activates a fresh program linked to the shared vertex shader, frees the old one, and keeps its own fragment shader alive |
| Shaders.Reload | src/Renderer.cpp:466-502 | as the code does, except that a superseded program's fragment shader is freed with it |
| Shaders.ReloadValid | src/Renderer.cpp:484-501 | the corrected reload keeps every live program linked to the shared vertex shader, keeps only the active program alive, and leaks no shader object |
| Shaders.ReloadAsWrittenValid | src/Renderer.cpp:466-502 | the reload as written keeps the program bookkeeping well formed |
| Shaders.ReloadAsWrittenLeaks | src/Renderer.cpp:484-501 | after two successful reloads as written, the first fragment shader is still live and no program uses it |
| Shaders.ReloadAll | src/Renderer.cpp:466-502 | any sequence of corrected reloads keeps the bookkeeping well formed and leaks no shader object |
| Shaders.ReloadAllAsWritten | src/Renderer.cpp:466-502 | any sequence of reloads as written keeps the program bookkeeping well formed |
| Shaders.LastSuccess | src/Renderer.cpp:496-499 | picks the last attempt that compiled and linked |
| Shaders.LastSuccessWins | src/Renderer.cpp:496-499 | after any sequence of corrected reloads with at least one success, the active program runs the source of the last attempt that compiled and linked |
| Shaders.NoSuccessNoChange | src/Renderer.cpp:477-494 | after any sequence of corrected reloads none of which compiled and linked, the active slot, the live programs and the live shaders are as before |
| Shaders.NeverEmptyAgain | src/Renderer.cpp:496-499 | once a program is active, no sequence of corrected reloads leaves the slot empty |
| Shaders.ReloadStepAgrees | src/Renderer.cpp:466-502 | one reload as written and one corrected reload, from states that differ only in live shaders, give the same verdict, active program, live programs and name counter |
| Shaders.AsWrittenAgrees | src/Renderer.cpp:466-502 | from the same state, any sequence of reloads as written and of corrected reloads ends with the same active program, live programs, name counter and vertex shader |
| Shaders.LastSuccessWinsAsWritten | src/Renderer.cpp:496-499 | with the code as written, from any well-formed state it reaches (leaked shaders included), after any sequence of reloads with at least one success the active program runs the source of the last attempt that compiled and linked |
| Shaders.NoSuccessNoChangeAsWritten | src/Renderer.cpp:477-494 | with the code as written, reloads none of which compiled and linked leave the active slot, the live programs and the live shaders as before |
| Shaders.NeverEmptyAgainAsWritten | src/Renderer.cpp:496-499 | with the code as written, from any well-formed state it reaches (leaked shaders included), once a program is active no sequence of reloads leaves the slot empty |
| Textures.CreateFromFile | src/Renderer.cpp:529-560 | an image that fails to decode creates nothing and leaves the counter; otherwise the texture takes the current unit and the counter advances |
| Textures.Create1D | src/Renderer.cpp:562-589 | a 1D texture of any non-negative width w is w by 1, takes the current unit, and the counter advances |
| Textures.PackAlpha | src/Renderer.cpp:623-624 | one pixel per coverage byte, with the low 24 bits all set and the top byte equal to the byte |
| Textures.AlphaRoundTrip | src/Renderer.cpp:623-624 | reading back the top byte of every packed pixel returns the mask |
| Textures.CreateAlphaMask | src/Renderer.cpp:618-637 | a w-by-h mask keeps the sizes as given, reports unit 0, leaves the counter alone, and uploads exactly the packed pixel of each of the first w * h bytes, however long the data is |
| Textures.UnitsDistinct | src/Renderer.cpp:528-637 | over any run of creations, file and 1D textures get strictly increasing units from the counter, masks get 0, failed decodes give nothing, and the counter ends at its start plus the number of unit-taking textures |
| Batcher.SlotOf | src/Renderer.cpp:698-705 | a stored vertex has z = 0, keeps the position, colour and texture coordinates, and has factor 0 when a texture is set and 1 otherwise |
| Batcher.Flush | src/Renderer.cpp:656-689 | an empty buffer emits nothing; otherwise exactly one draw call of the pending slots is emitted (triangles in quad mode, lines otherwise) and the buffer empties |
| Batcher.WriteVertex | src/Renderer.cpp:690-706 | a full buffer is flushed first, so the buffer never exceeds 6144 slots and the vertex is appended at the end of everything written so far |
| Batcher.BindTexture | src/Renderer.cpp:707-730 | a new non-null texture first draws the pending slots as one call with the previously bound texture and the current primitive, then is bound; the same texture or null changes no slot, draws nothing and leaves the bound texture as it was; the bound texture changes only on an empty buffer |
| Batcher.WriteAll | src/Renderer.cpp:690-706 | writing vertices one after another appends their slots in order, keeps earlier draw calls, and any call it issues uses the current primitive and bound texture |
| Batcher.RenderQuad | src/Renderer.cpp:732-745 | earlier draw calls are kept; pending line slots are drawn first as their own Lines call, every further call it issues is a triangle call, every call it issues uses the texture bound before it, and the quad appends exactly a, b, d, b, c, d |
| Batcher.RenderLine | src/Renderer.cpp:747-756 | earlier draw calls are kept; pending quad slots are drawn first as their own Triangles call, every further call it issues is a line call, every call it issues uses the texture bound before it, and the line appends exactly a, b |
| Batcher.EnterQuadMode | src/Renderer.cpp:734-738 | a switch from lines to quads draws the pending slots as one Lines call with the bound texture (nothing if there are none) and empties the buffer, keeping the current and bound textures; in quad mode nothing changes |
| Batcher.EnterLineMode | src/Renderer.cpp:749-753 | a switch from quads to lines draws the pending slots as one Triangles call with the bound texture (nothing if there are none) and empties the buffer, keeping the current and bound textures; in line mode nothing changes |
| Batcher.WriteAllNoFlush | src/Renderer.cpp:692-695 | vertices that fit in the free part of the buffer are appended without a draw call |
| Batcher.WriteAllIntoFull | src/Renderer.cpp:692-695 | vertices written into a full buffer draw the full buffer first, then stay pending |
| Batcher.RenderQuadAligned | src/Renderer.cpp:732-745 | a quad never straddles two draw calls: every draw call holds whole primitives and at most 6144 slots |
| Batcher.RenderLineAligned | src/Renderer.cpp:747-756 | a line never straddles two draw calls |
| Batcher.BindTextureAligned | src/Renderer.cpp:707-730 | binding keeps the invariant, including that a non-null current texture is the bound one |
| Batcher.QuadsStayPending | src/Renderer.cpp:690-745 | quads that fit in the buffer all stay pending in order, with no draw call |
| Batcher.OneDrawCallPerBatch | src/Renderer.cpp:656-745 | up to 1024 quads from an empty buffer, then a flush, reach the GPU as one triangle draw call holding all their slots in order |
| Readback.Flip | src/Renderer.cpp:769-780 | row i of the copy is row h-1-i of the buffer |
| Readback.CopyFlipped | src/Renderer.cpp:769-780 | the copy loop, walking the destination pointer down one row at a time, produces the row-reversed frame |
| Readback.Grab | src/Renderer.cpp:760-784 | both indices advance mod 2 and stay different; the framebuffer lands in the write buffer; a buffer that maps is copied out flipped |
| Readback.OneFrameLatency | src/Renderer.cpp:244-245 | from read 0 and write 1, each grab copies out the frame captured one grab earlier, flipped; the first grab maps a buffer never filled |
| Startup.UntilNul | src/Shade.cpp:173 | `strlen` sees the longest NUL-free prefix, which stops at the first NUL |
| Startup.ReadShaderAsWritten | src/Shade.cpp:162-173 | the terminator is missing exactly when the file has 65535 or more bytes and no NUL among the first 65535; otherwise the text is the file up to its first NUL, shorter than the buffer |
| Startup.ReadShaderAsWrittenOverruns | src/Shade.cpp:170-173 | a file of 65535 non-NUL bytes leaves the buffer unterminated |
| Startup.ReadShader | src/Shade.cpp:162-173 | the corrected read yields a NUL-free prefix of the file shorter than the buffer, and the whole file when it fits and has no NUL |
| Startup.ReadShaderAgreesBelowLimit | src/Shade.cpp:170-173 | for files shorter than the buffer, the read as written and the corrected read agree |
| Startup.StartShaders | src/Shade.cpp:161-201 | the saved shader is tried when the file exists; the default is tried exactly when the saved one is missing or fails; start-up fails only when the default fails too; the active program runs the last source tried |
| Startup.DefaultOnlyAsFallback | src/Shade.cpp:182-201 | when the saved shader works it is the only attempt; otherwise the default is attempted after the saved file, if there is one |
| Startup.ResolutionUniform | src/Shade.cpp:213-214 | the width passes through; the height sent is 1080 exactly when the render height is 1080, and 1440 otherwise |
| Startup.UniformPerMode | src/Shade.cpp:213-214 | only full-size docked rendering sends 1920x1080; every other configuration sends its width with height 1440, e.g. 1280x1440 in handheld |

## Left out

- EGL bring-up and teardown (`Open`, `StartFrame`, `EndFrame`, the mesa configuration): device plumbing around foreign calls.
- The GL calls themselves, the shader info logs and the uniform setters (`SetShaderConstant`, `SetShaderTexture`, `UpdateR32Texture`, `RenderFullscreenQuad`): foreign calls. Their effect on the modelled state appears as events in the state or as inputs.
- `stbi_load`: image decoding is an input that either succeeds with a size or fails.
- `MatrixOrthoOffCenterLH`, the clear colours, and src/Timer.cpp: floating-point and clock arithmetic.
- include/Shade.h: it holds only includes and a logging macro.
- Reading `shader.glsl` and the commented-out configuration and texture loading: file I/O. The file contents are an input to `Startup.StartShaders`.
- The GLSL text of the default and GUI shaders. Only the marker block is modelled, by `Tokens.DefaultShaderExpansion`.
- GL object names: fresh names come from a counter. A driver may reuse freed names; the model never does.
- Readback.Grab: assumes each pixel-pack buffer holds the whole current frame, and copies out the stored frame at its own size. In the code, `Open` sizes both buffers from `nWidth * nHeight` before `configureResolution` has set them (both 0), and the copy loop uses the current `nWidth`/`nHeight` rather than the size of the stored frame.
- Text.Expand: requires that some character be rarer in the token than in the marker. The code only needs the loop to end. Whether repeated leftmost replacement terminates has no general criterion, so the model states this sufficient condition. `Text.LoopNeverExits` states the converse case, a token containing the marker.
- Shaders.ReloadAsWritten: requires the name bookkeeping invariant `Valid` (fresh names, one shared vertex shader). `Shaders.Boot` establishes it, and `Shaders.ReloadAsWrittenValid` and `Shaders.ReloadAllAsWritten` keep it over every reload as written.
- Textures.CreateFromFile: the counter is an unbounded integer. `textureUnit` is a C `int` that would overflow after 2^31 textures.
- Textures.PackAlpha: `data[i] << 24` is computed on a promoted `int` in the code. It is modelled as a 32-bit shift, which gives the same bit pattern that is stored into the `unsigned int` array.
- Batcher.BindTexture: assumes the GUI program has its `tex` uniform; the `location != -1` test is not modelled.
- Batcher.BindTexture: `bound` is the texture the batcher itself last bound. Texture creation, `SetShaderTexture` and `UpdateR32Texture` rebind units on their own and never reset `lastTexture`, so after a creation a repeated `BindTexture` skips the rebind and the GPU may sample another texture than `bound` says.
- Textures.Create1D: takes a non-negative width. With a negative width `new float[w]` throws before the unit counter advances, and nothing catches it; that path is not modelled.
- Textures.CreateAlphaMask: takes a non-negative pixel count w * h no larger than the data. A negative product makes `new unsigned int[w * h]` throw, which nothing catches, and shorter data is read past its end; neither path is modelled. A negative w and h whose product is non-negative are accepted and stored as given, as in the code.
- Startup.StartShaders: uses the corrected shader-file read, and copies the default shader through the same 65534-character limit. It also runs the corrected `Shaders.Reload`; by `Shaders.AsWrittenAgrees` the reload as written gives the same active program and live programs, differing only in the leaked fragment shaders.

## Findings

| source | as written | input that shows it | evidently intended | confidence | as-written member | corrected member |
|---|---|---|---|---|---|---|
| src/Renderer.cpp:484-501 | a successful reload deletes the previous program but never deletes any fragment shader, so each superseded program's fragment shader stays live | two reloads that both compile and link: the first fragment shader is still live, and no program uses it | flag the fragment shader for deletion once linked, so it goes away with its program | not executed | Shaders.ReloadAsWrittenLeaks | Shaders.ReloadValid |
| src/Shade.cpp:162,170-173 | up to 65535 bytes are read into a 65535-byte buffer, then `strlen` is applied to it | a shader file of 65535 bytes with no NUL: the buffer has no terminator and `strlen` reads past it | read at most 65534 bytes, keeping one byte for the terminator | not executed | Startup.ReadShaderAsWrittenOverruns | Startup.ReadShader |

=== FILE: batcher.dfy ===
/**
 * The immediate-mode GUI batcher of src/Renderer.cpp: vertices are appended
 * to one CPU buffer of 6144 slots, and the buffer is drawn and emptied when it
 * is full, when the primitive type switches between quads and lines, and when
 * a new texture is bound.  Coordinates are copied, never computed, so they are
 * modelled as reals; the colour is the packed 32-bit value.
 */
module Batcher {
  import opened Wrappers

  /** Vertex slots in the CPU buffer (`GUIQUADVB_SIZE`). */
  const Capacity: nat := 1024 * 6

  /** Identity of a texture object (the pointer handed to `BindTexture`). */
  type TexId = nat

  /** A vertex as the caller passes it. */
  datatype Vertex = Vertex(x: real, y: real, color: bv32, u: real, v: real)

  /** One slot of the buffer: position with z = 0, colour, texture coordinates, and the untextured factor. */
  datatype Slot = Slot(x: real, y: real, z: real, color: bv32, u: real, v: real, factor: real)

  datatype Primitive = Triangles | Lines

  /**
   * A `glDrawArrays` call: its primitive, the slots uploaded, and the texture the
   * batcher itself last bound (binds made by texture creation are not seen here).
   */
  datatype DrawCall = DrawCall(prim: Primitive, slots: seq<Slot>, texture: Option<TexId>)

  /**
   * The batcher's globals: `buffer[0..bufferPointer)`, `lastModeIsQuad`,
   * `lastTexture`, the texture last bound on the GL side, and the draw calls
   * issued so far.
   */
  datatype Batch = Batch(pending: seq<Slot>, quadMode: bool, lastTexture: Option<TexId>,
                         bound: Option<TexId>, draws: seq<DrawCall>)

  /** The batcher as the program starts: empty, in quad mode, no texture. */
  const Start := Batch([], true, None, None, [])

  function ModePrimitive(quadMode: bool): Primitive
  {
    if quadMode then Triangles else Lines
  }

  /** The slot stored for a vertex: z is 0, and the factor is 0 under a texture and 1 without. */
  function SlotOf(v: Vertex, lastTexture: Option<TexId>): (s: Slot)
    ensures s.x == v.x && s.y == v.y && s.z == 0.0 && s.color == v.color && s.u == v.u && s.v == v.v
    ensures s.factor == 0.0 <==> lastTexture.Some?
    ensures s.factor == 0.0 || s.factor == 1.0
  {
    Slot(v.x, v.y, 0.0, v.color, v.u, v.v, if lastTexture.Some? then 0.0 else 1.0)
  }

  /** All slots drawn so far, in the order they were drawn. */
  function Flatten(draws: seq<DrawCall>): seq<Slot>
  {
    if |draws| == 0 then [] else Flatten(draws[..|draws| - 1]) + draws[|draws| - 1].slots
  }

  lemma FlattenAppend(draws: seq<DrawCall>, d: DrawCall)
    ensures Flatten(draws + [d]) == Flatten(draws) + d.slots
  {
    assert (draws + [d])[..|draws|] == draws;
  }

  /** Every slot written so far: drawn or still pending. */
  function Emitted(b: Batch): seq<Slot>
  {
    Flatten(b.draws) + b.pending
  }

  /** `__FlushRenderCache`: draw the pending slots with the current primitive, unless there are none. */
  function Flush(b: Batch): (r: Batch)
    ensures Emitted(r) == Emitted(b) && r.pending == []
    ensures |b.pending| == 0 ==> r == b
    ensures |b.pending| > 0 ==> r.draws == b.draws + [DrawCall(ModePrimitive(b.quadMode), b.pending, b.bound)]
    ensures r.quadMode == b.quadMode && r.lastTexture == b.lastTexture && r.bound == b.bound
  {
    if |b.pending| == 0 then b
    else
      var d := DrawCall(ModePrimitive(b.quadMode), b.pending, b.bound);
      FlattenAppend(b.draws, d);
      b.(pending := [], draws := b.draws + [d])
  }

  /** `__WriteVertexToBuffer`: flush a full buffer, then append the vertex's slot. */
  function WriteVertex(b: Batch, v: Vertex): (r: Batch)
    ensures Emitted(r) == Emitted(b) + [SlotOf(v, b.lastTexture)]
    ensures |b.pending| < Capacity ==> r.pending == b.pending + [SlotOf(v, b.lastTexture)] && r.draws == b.draws
    ensures |b.pending| >= Capacity ==> r.pending == [SlotOf(v, b.lastTexture)]
    ensures |b.pending| >= Capacity ==> r.draws == b.draws + [DrawCall(ModePrimitive(b.quadMode), b.pending, b.bound)]
    ensures 0 < |r.pending| <= Capacity
    ensures r.quadMode == b.quadMode && r.lastTexture == b.lastTexture && r.bound == b.bound
  {
    var f := if |b.pending| >= Capacity then Flush(b) else b;
    f.(pending := f.pending + [SlotOf(v, b.lastTexture)])
  }

  /**
   * `BindTexture`: a change of texture is recorded; only a change to a real
   * texture flushes and binds it, so the pending slots are drawn with the
   * texture that was bound while they were written.
   */
  function BindTexture(b: Batch, tex: Option<TexId>): (r: Batch)
    ensures Emitted(r) == Emitted(b) && r.quadMode == b.quadMode && r.lastTexture == tex
    ensures (tex == b.lastTexture || tex.None?) ==> r.pending == b.pending && r.draws == b.draws
    ensures r.bound != b.bound ==> r.pending == [] && r.bound == tex
    ensures tex.None? || tex == b.lastTexture ==> r.bound == b.bound
    ensures tex != b.lastTexture && tex.Some? ==> r.pending == [] && r.bound == tex
    ensures tex != b.lastTexture && tex.Some? && |b.pending| > 0 ==> r.draws == b.draws + [DrawCall(ModePrimitive(b.quadMode), b.pending, b.bound)]
    ensures tex != b.lastTexture && tex.Some? && |b.pending| == 0 ==> r.draws == b.draws
  {
    if b.lastTexture == tex then b
    else if tex.None? then b.(lastTexture := tex)
    else Flush(b).(lastTexture := tex, bound := tex)
  }

  /** The slots a run of vertices becomes under one texture state. */
  function SlotsOf(vs: seq<Vertex>, t: Option<TexId>): (r: seq<Slot>)
    ensures |r| == |vs|
  {
    if |vs| == 0 then [] else SlotsOf(vs[..|vs| - 1], t) + [SlotOf(vs[|vs| - 1], t)]
  }

  /** Write vertices one after another, as the render calls do. */
  function WriteAll(s: Batch, vs: seq<Vertex>): (r: Batch)
    ensures Emitted(r) == Emitted(s) + SlotsOf(vs, s.lastTexture)
    ensures r.quadMode == s.quadMode && r.lastTexture == s.lastTexture && r.bound == s.bound
    ensures |r.draws| >= |s.draws| && r.draws[..|s.draws|] == s.draws
    ensures forall i :: |s.draws| <= i < |r.draws| ==>
              r.draws[i].prim == ModePrimitive(s.quadMode) && r.draws[i].texture == s.bound
  {
    if |vs| == 0 then s
    else
      var m := WriteAll(s, vs[..|vs| - 1]);
      var r := WriteVertex(m, vs[|vs| - 1]);
      assert r.draws[..|m.draws|] == m.draws;
      assert r.draws[..|s.draws|] == m.draws[..|s.draws|];
      r
  }

  /** The order `RenderQuad` writes a quad a, b, c, d in: triangles (a, b, d) and (b, c, d). */
  function QuadOrder(a: Vertex, b: Vertex, c: Vertex, d: Vertex): seq<Vertex>
  {
    [a, b, d, b, c, d]
  }

  /** The batch after leaving line mode, as `RenderQuad` does before writing. */
  function EnterQuadMode(s: Batch): (r: Batch)
    ensures Emitted(r) == Emitted(s) && r.quadMode
    ensures !s.quadMode ==> r.pending == []
    ensures !s.quadMode && |s.pending| > 0 ==> r.draws == s.draws + [DrawCall(Lines, s.pending, s.bound)]
    ensures !s.quadMode && |s.pending| == 0 ==> r.draws == s.draws
    ensures s.quadMode ==> r == s
    ensures r.lastTexture == s.lastTexture && r.bound == s.bound
  {
    if !s.quadMode then Flush(s).(quadMode := true) else s
  }

  /**
   * Draw calls after a mode switch that drew at most `d`, followed by writes
   * whose own calls all use primitive `p`; all of them under texture `t`.
   */
  lemma DrawsAfterSwitch(before: seq<DrawCall>, mid: seq<DrawCall>, after: seq<DrawCall>, d: DrawCall,
                         p: Primitive, t: Option<TexId>)
    requires mid == before || mid == before + [d]
    requires d.texture == t
    requires |after| >= |mid| && after[..|mid|] == mid
    requires forall i :: |mid| <= i < |after| ==> after[i].prim == p && after[i].texture == t
    ensures |after| >= |before| && after[..|before|] == before
    ensures forall i :: |before| <= i < |after| ==> after[i].texture == t
    ensures mid == before + [d] ==> |after| > |before| && after[|before|] == d
    ensures mid == before + [d] ==> forall i :: |before| < i < |after| ==> after[i].prim == p
    ensures mid == before ==> forall i :: |before| <= i < |after| ==> after[i].prim == p
  {
    assert after[..|before|] == mid[..|before|];
    if mid == before + [d] {
      assert after[|before|] == mid[|before|];
    }
  }

  /** `RenderQuad`: leave line mode if needed, then write a, b, d, b, c, d. */
  function RenderQuad(s: Batch, a: Vertex, b: Vertex, c: Vertex, d: Vertex): (r: Batch)
    ensures Emitted(r) == Emitted(s) + SlotsOf(QuadOrder(a, b, c, d), s.lastTexture)
    ensures r.quadMode && r.lastTexture == s.lastTexture && r.bound == s.bound
    ensures |r.draws| >= |s.draws| && r.draws[..|s.draws|] == s.draws
    ensures !s.quadMode && |s.pending| > 0 ==>
              (&& |r.draws| > |s.draws|
               && r.draws[|s.draws|] == DrawCall(Lines, s.pending, s.bound)
               && forall i :: |s.draws| < i < |r.draws| ==> r.draws[i].prim == Triangles)
    ensures s.quadMode || |s.pending| == 0 ==> forall i :: |s.draws| <= i < |r.draws| ==> r.draws[i].prim == Triangles
    ensures forall i :: |s.draws| <= i < |r.draws| ==> r.draws[i].texture == s.bound
  {
    var q := EnterQuadMode(s);
    var r := WriteAll(q, QuadOrder(a, b, c, d));
    DrawsAfterSwitch(s.draws, q.draws, r.draws, DrawCall(Lines, s.pending, s.bound), Triangles, s.bound);
    r
  }

  /** The batch after leaving quad mode, as `RenderLine` does before writing. */
  function EnterLineMode(s: Batch): (r: Batch)
    ensures Emitted(r) == Emitted(s) && !r.quadMode
    ensures s.quadMode ==> r.pending == []
    ensures s.quadMode && |s.pending| > 0 ==> r.draws == s.draws + [DrawCall(Triangles, s.pending, s.bound)]
    ensures s.quadMode && |s.pending| == 0 ==> r.draws == s.draws
    ensures !s.quadMode ==> r == s
    ensures r.lastTexture == s.lastTexture && r.bound == s.bound
  {
    if s.quadMode then Flush(s).(quadMode := false) else s
  }

  /** `RenderLine`: leave quad mode if needed, then write a, b. */
  function RenderLine(s: Batch, a: Vertex, b: Vertex): (r: Batch)
    ensures Emitted(r) == Emitted(s) + SlotsOf([a, b], s.lastTexture)
    ensures !r.quadMode && r.lastTexture == s.lastTexture && r.bound == s.bound
    ensures |r.draws| >= |s.draws| && r.draws[..|s.draws|] == s.draws
    ensures s.quadMode && |s.pending| > 0 ==>
              (&& |r.draws| > |s.draws|
               && r.draws[|s.draws|] == DrawCall(Triangles, s.pending, s.bound)
               && forall i :: |s.draws| < i < |r.draws| ==> r.draws[i].prim == Lines)
    ensures !s.quadMode || |s.pending| == 0 ==> forall i :: |s.draws| <= i < |r.draws| ==> r.draws[i].prim == Lines
    ensures forall i :: |s.draws| <= i < |r.draws| ==> r.draws[i].texture == s.bound
  {
    var q := EnterLineMode(s);
    var r := WriteAll(q, [a, b]);
    DrawsAfterSwitch(s.draws, q.draws, r.draws, DrawCall(Triangles, s.pending, s.bound), Lines, s.bound);
    r
  }

  /** A draw call holds whole primitives of its kind and fits the buffer. */
  predicate WholePrimitives(d: DrawCall)
  {
    && 0 < |d.slots| <= Capacity
    && (d.prim == Triangles ==> |d.slots| % 6 == 0)
    && (d.prim == Lines ==> |d.slots| % 2 == 0)
  }

  /**
   * The batcher's invariant: pending slots never exceed the buffer and always
   * end on a primitive boundary of the current mode, every draw issued holds
   * whole primitives, and a non-null current texture is the bound one.
   */
  predicate Aligned(b: Batch)
  {
    && |b.pending| <= Capacity
    && (if b.quadMode then |b.pending| % 6 == 0 else |b.pending| % 2 == 0)
    && (forall i :: 0 <= i < |b.draws| ==> WholePrimitives(b.draws[i]))
    && (b.lastTexture.Some? ==> b.lastTexture == b.bound)
  }

  lemma StartAligned()
    ensures Aligned(Start) && Emitted(Start) == []
  {
  }

  lemma FlushAligned(b: Batch)
    requires Aligned(b)
    ensures Aligned(Flush(b))
  {
    if |b.pending| > 0 {
      var r := Flush(b);
      forall i | 0 <= i < |r.draws|
        ensures WholePrimitives(r.draws[i])
      {
        if i == |b.draws| {
          assert r.draws[i].slots == b.pending;
        } else {
          assert r.draws[i] == b.draws[i];
        }
      }
    }
  }

  /** Vertices that fit in the free part of the buffer are appended without a draw call. */
  lemma {:induction false} WriteAllNoFlush(s: Batch, vs: seq<Vertex>)
    requires |s.pending| + |vs| <= Capacity
    ensures WriteAll(s, vs).pending == s.pending + SlotsOf(vs, s.lastTexture)
    ensures WriteAll(s, vs).draws == s.draws
    decreases |vs|
  {
    if |vs| > 0 {
      WriteAllNoFlush(s, vs[..|vs| - 1]);
    }
  }

  /** Vertices written into a full buffer: the full buffer is drawn first, then they all stay pending. */
  lemma {:induction false} WriteAllIntoFull(s: Batch, vs: seq<Vertex>)
    requires |s.pending| == Capacity && 0 < |vs| <= Capacity
    ensures WriteAll(s, vs).pending == SlotsOf(vs, s.lastTexture)
    ensures WriteAll(s, vs).draws == s.draws + [DrawCall(ModePrimitive(s.quadMode), s.pending, s.bound)]
    decreases |vs|
  {
    if |vs| > 1 {
      WriteAllIntoFull(s, vs[..|vs| - 1]);
    }
  }

  /**
   * Writing one primitive of m slots (a quad's 6 or a line's 2) keeps the
   * invariant when the pending slots sit on an m boundary.
   */
  lemma WritePrimitiveAligned(s: Batch, vs: seq<Vertex>)
    requires Aligned(s) && (|vs| == 2 || |vs| == 6) && |s.pending| % |vs| == 0
    ensures var r := WriteAll(s, vs);
      |r.pending| <= Capacity && |r.pending| % |vs| == 0 && Aligned(s.(pending := []))
      && (forall i :: 0 <= i < |r.draws| ==> WholePrimitives(r.draws[i]))
  {
    FlushAligned(s);
    if |s.pending| == Capacity {
      WriteAllIntoFull(s, vs);
      NextBoundary(|s.pending|, |vs|);
      assert Flush(s).draws == WriteAll(s, vs).draws;
    } else {
      NextBoundary(|s.pending|, |vs|);
      WriteAllNoFlush(s, vs);
    }
  }

  /** Counts on a 2- or 6-slot boundary: the next primitive ends on one too, and fits if the buffer is not full. */
  lemma NextBoundary(n: nat, m: nat)
    requires (m == 2 || m == 6) && n % m == 0
    ensures (n + m) % m == 0 && m % m == 0
    ensures n < Capacity ==> n + m <= Capacity
  {
    // The case split is the proof: each constant modulus is easy on its own.
    if m == 2 {
    } else {
    }
  }

  /** A quad never straddles two draw calls: the invariant survives `RenderQuad`. */
  lemma RenderQuadAligned(s: Batch, a: Vertex, b: Vertex, c: Vertex, d: Vertex)
    requires Aligned(s)
    ensures Aligned(RenderQuad(s, a, b, c, d))
  {
    FlushAligned(s);
    WritePrimitiveAligned(EnterQuadMode(s), QuadOrder(a, b, c, d));
  }

  /** A line never straddles two draw calls: the invariant survives `RenderLine`. */
  lemma RenderLineAligned(s: Batch, a: Vertex, b: Vertex)
    requires Aligned(s)
    ensures Aligned(RenderLine(s, a, b))
  {
    FlushAligned(s);
    WritePrimitiveAligned(EnterLineMode(s), [a, b]);
  }

  lemma BindTextureAligned(s: Batch, tex: Option<TexId>)
    requires Aligned(s)
    ensures Aligned(BindTexture(s, tex))
  {
    FlushAligned(s);
  }

  /** A quad as passed to `RenderQuad`. */
  datatype Quad = Quad(a: Vertex, b: Vertex, c: Vertex, d: Vertex)

  function RenderQuads(s: Batch, qs: seq<Quad>): Batch
  {
    if |qs| == 0 then s
    else
      var q := qs[|qs| - 1];
      RenderQuad(RenderQuads(s, qs[..|qs| - 1]), q.a, q.b, q.c, q.d)
  }

  function AllQuadSlots(qs: seq<Quad>, t: Option<TexId>): (r: seq<Slot>)
    ensures |r| == 6 * |qs|
  {
    if |qs| == 0 then []
    else
      var q := qs[|qs| - 1];
      AllQuadSlots(qs[..|qs| - 1], t) + SlotsOf(QuadOrder(q.a, q.b, q.c, q.d), t)
  }

  /** Quads that fit in the buffer all stay pending: no draw call is issued for them. */
  lemma {:induction false} QuadsStayPending(s: Batch, qs: seq<Quad>)
    requires s.quadMode && |s.pending| + 6 * |qs| <= Capacity
    ensures var r := RenderQuads(s, qs);
      r.pending == s.pending + AllQuadSlots(qs, s.lastTexture) && r.draws == s.draws
      && r.quadMode && r.lastTexture == s.lastTexture && r.bound == s.bound
    decreases |qs|
  {
    if |qs| > 0 {
      var init := qs[..|qs| - 1];
      var q := qs[|qs| - 1];
      QuadsStayPending(s, init);
      var m := RenderQuads(s, init);
      WriteAllNoFlush(m, QuadOrder(q.a, q.b, q.c, q.d));
    }
  }

  /**
   * Up to 1024 quads written from an empty buffer in quad mode and then
   * flushed reach the GPU as exactly one triangle draw call holding all their
   * slots in order.
   */
  lemma OneDrawCallPerBatch(s: Batch, qs: seq<Quad>)
    requires s.quadMode && s.pending == [] && 0 < |qs| <= 1024
    ensures Flush(RenderQuads(s, qs)).draws
            == s.draws + [DrawCall(Triangles, AllQuadSlots(qs, s.lastTexture), s.bound)]
  {
    QuadsStayPending(s, qs);
    var r := RenderQuads(s, qs);
    assert r.pending == AllQuadSlots(qs, s.lastTexture);
    assert |r.pending| > 0;
  }
}

=== FILE: readback.dfy ===
/**
 * `GrabFrame` from src/Renderer.cpp: the framebuffer is read into one of two
 * pixel-pack buffers while the other, filled one grab earlier, is mapped and
 * copied out with its rows reversed (GL stores the bottom row first).  Whether
 * the driver maps the buffer is an input; a buffer never written holds
 * undefined contents.
 */
module Readback {
  import opened Wrappers

  /** Pixels of one row, each a packed RGBA8 value. */
  type Row = seq<bv32>

  /** Rows of a frame, in the order they are stored. */
  type Frame = seq<Row>

  /**
   * `readIndex`, `writeIndex` and the two buffers; `None` is a buffer whose
   * storage was allocated but never filled.
   */
  datatype Readback = Readback(read: nat, write: nat, buffers: seq<Option<Frame>>)

  /** What reaches the caller's pixel buffer after one grab. */
  datatype Copy = NotMapped | Copied(frame: Option<Frame>)

  /** The state after `Open`: read 0, write 1, both buffers unfilled. */
  const Initial := Readback(0, 1, [None, None])

  predicate Valid(r: Readback)
  {
    r.read < 2 && r.write < 2 && r.read != r.write && |r.buffers| == 2
  }

  /** Rows in reverse order: row i of the result is row h-1-i of the input. */
  function Flip(rows: Frame): (r: Frame)
    ensures |r| == |rows|
    ensures forall i :: 0 <= i < |rows| ==> r[i] == rows[|rows| - 1 - i]
  {
    if |rows| == 0 then [] else Flip(rows[1..]) + [rows[0]]
  }

  /** Flipping twice restores the frame. */
  lemma FlipFlip(rows: Frame)
    ensures Flip(Flip(rows)) == rows
  {
  }

  /**
   * The copy loop of `GrabFrame`: source row i is written to destination row
   * h-1-i, walking the destination pointer down one row at a time.
   */
  method CopyFlipped(src: Frame, dst: Frame) returns (out: Frame)
    requires |dst| == |src|
    ensures out == Flip(src)
  {
    out := dst;
    var h := |src|;
    var i := 0;
    while i < h
      invariant 0 <= i <= h && |out| == h
      invariant forall j :: 0 <= j < i ==> out[h - 1 - j] == src[j]
    {
      out := out[h - 1 - i := src[i]];
      i := i + 1;
    }
    assert forall k :: 0 <= k < h ==> out[k] == src[h - 1 - k] by {
      forall k | 0 <= k < h
        ensures out[k] == src[h - 1 - k]
      {
        var j := h - 1 - k;
        assert out[h - 1 - j] == src[j];
      }
    }
  }

  /**
   * One `GrabFrame`: advance both indices, store the current framebuffer in the
   * write buffer, and copy out the read buffer flipped if it maps.
   */
  function Grab(r: Readback, framebuffer: Frame, mapped: bool): (res: (Readback, Copy))
    requires Valid(r)
    ensures Valid(res.0) && res.0.read == r.write && res.0.write == r.read
    ensures res.0.buffers[res.0.write] == Some(framebuffer)
    ensures res.0.buffers[res.0.read] == r.buffers[r.write]
    ensures !mapped ==> res.1 == NotMapped
    ensures mapped ==> res.1 == Copied(if r.buffers[r.write].Some? then Some(Flip(r.buffers[r.write].value)) else None)
  {
    var write := (r.write + 1) % 2;
    var read := (r.read + 1) % 2;
    var buffers := r.buffers[write := Some(framebuffer)];
    var copy := if !mapped then NotMapped
                else match buffers[read]
                  case None => Copied(None)
                  case Some(f) => Copied(Some(Flip(f)));
    (Readback(read, write, buffers), copy)
  }

  /** A run of grabs: the framebuffer at each grab and whether its read buffer maps. */
  function GrabAll(r: Readback, frames: seq<Frame>, mapped: seq<bool>): (res: (Readback, seq<Copy>))
    requires Valid(r) && |frames| == |mapped|
    ensures Valid(res.0) && |res.1| == |frames|
    decreases |frames|
  {
    if |frames| == 0 then (r, [])
    else
      var n := |frames| - 1;
      var before := GrabAll(r, frames[..n], mapped[..n]);
      var step := Grab(before.0, frames[n], mapped[n]);
      (step.0, before.1 + [step.1])
  }

  /**
   * One frame of latency: from the initial state, grab k copies out the frame
   * captured at grab k-1, flipped; the first grab maps a buffer that was never
   * filled.  A grab whose buffer does not map copies nothing.
   */
  lemma {:induction false} OneFrameLatency(frames: seq<Frame>, mapped: seq<bool>)
    requires |frames| == |mapped|
    ensures var res := GrabAll(Initial, frames, mapped);
      && (|frames| > 0 ==> res.0.buffers[res.0.write] == Some(frames[|frames| - 1]))
      && (forall k :: 0 <= k < |frames| ==>
            res.1[k] == if !mapped[k] then NotMapped
                        else if k == 0 then Copied(None)
                        else Copied(Some(Flip(frames[k - 1]))))
    decreases |frames|
  {
    if |frames| > 0 {
      var n := |frames| - 1;
      OneFrameLatency(frames[..n], mapped[..n]);
      var before := GrabAll(Initial, frames[..n], mapped[..n]);
      var res := GrabAll(Initial, frames, mapped);
      assert res.1 == before.1 + [Grab(before.0, frames[n], mapped[n]).1];
      forall k | 0 <= k < n
        ensures res.1[k] == before.1[k] && frames[..n][k] == frames[k] && mapped[..n][k] == mapped[k]
      {
      }
      if n > 0 {
        assert frames[..n][n - 1] == frames[n - 1];
      }
    }
  }
}

=== FILE: resolution.dfy ===
/**
 * `configureResolution` from src/Renderer.cpp: the render size follows the
 * console's operation mode, optionally halved, and the output crop and the GL
 * viewport are set so that the image sits in the top-left corner of the fixed
 * 1920x1080 framebuffer.
 */
module Resolution {

  /** The answer of the operation-mode query; any other code falls to `default`. */
  datatype OperationMode = Handheld | Docked | Unrecognised(code: int)

  /** Height of the physical framebuffer, against which the viewport's bottom edge is measured. */
  const FramebufferHeight: int := 1080
  const FramebufferWidth: int := 1920

  /** A rectangle given by its origin and its size; the crop passes it as left, top, right, bottom, which agree here because the origin is 0. */
  datatype Rect = Rect(x: int, y: int, width: int, height: int)

  /** The effect of one call: the globals `nWidth`/`nHeight`, the crop and the viewport. */
  datatype Output = Output(width: int, height: int, crop: Rect, viewport: Rect)

  /** The size the mode asks for before halving. */
  function NativeSize(mode: OperationMode): (int, int)
  {
    match mode
    case Docked => (1920, 1080)
    case _ => (1280, 720)
  }

  function ConfigureResolution(mode: OperationMode, halved: bool): (o: Output)
    ensures mode.Docked? && !halved ==> o.width == 1920 && o.height == 1080
    ensures !mode.Docked? && !halved ==> o.width == 1280 && o.height == 720
    ensures halved ==> o.width * 2 == NativeSize(mode).0 && o.height * 2 == NativeSize(mode).1
    ensures o.width * 9 == o.height * 16
    ensures 0 < o.width <= FramebufferWidth && 0 < o.height <= FramebufferHeight
    ensures o.crop == Rect(0, 0, o.width, o.height)
    ensures o.viewport.x == 0 && o.viewport.width == o.width && o.viewport.height == o.height
    ensures o.viewport.y >= 0 && o.viewport.y + o.viewport.height == FramebufferHeight
  {
    var (w, h) := NativeSize(mode);
    var (width, height) := if halved then (w / 2, h / 2) else (w, h);
    Output(width, height, Rect(0, 0, width, height), Rect(0, FramebufferHeight - height, width, height))
  }

  /** The four render sizes: 1280x720, 1920x1080, and half of each. */
  lemma ResolutionTable()
    ensures ConfigureResolution(Handheld, false).height == 720
    ensures ConfigureResolution(Docked, true).width == 960
    ensures ConfigureResolution(Docked, true).height == 540
    ensures ConfigureResolution(Handheld, true).width == 640
    ensures ConfigureResolution(Handheld, true).viewport == Rect(0, 720, 640, 360)
    ensures forall c :: ConfigureResolution(Unrecognised(c), false) == ConfigureResolution(Handheld, false)
  {
  }
}

=== FILE: shaders.dfy ===
/**
 * `ReloadShader` from src/Renderer.cpp: compile a fragment shader, link it with
 * the one shared vertex shader, and only on success swap it into the active
 * program slot `theShader`.  GL objects are modelled by their names; the
 * driver's compile and link verdicts are inputs.
 */
module Shaders {

  /** A GL object name; 0 is GL's "no object". */
  type Name = nat

  /** A linked program: the shared vertex shader, its own fragment shader, and the source it runs. */
  datatype Program = Program(vertex: Name, fragment: Name, source: string)

  /**
   * The GL objects of the shader pipeline: the active slot `theShader`, the
   * shared `glhVertexShader`, the live program and shader objects, and the
   * next name the driver hands out.
   */
  datatype Gl = Gl(active: Name, vertexShader: Name, programs: map<Name, Program>,
                   shaders: set<Name>, next: Name)

  /** One reload request: the fragment source and the driver's verdicts on it. */
  datatype Attempt = Attempt(source: string, compiles: bool, links: bool)

  /** The boolean result of `ReloadShader` and the GL state after it. */
  datatype Outcome = Outcome(ok: bool, gl: Gl)

  predicate Succeeds(a: Attempt)
  {
    a.compiles && a.links
  }

  /**
   * Names are fresh below `next`; every live program is linked against the
   * shared vertex shader; the only live program is the active one.
   */
  ghost predicate Valid(g: Gl)
  {
    && 0 < g.vertexShader < g.next
    && g.vertexShader in g.shaders
    && (forall h :: h in g.shaders ==> 0 < h < g.next)
    && (forall p :: p in g.programs ==>
          && 0 < p < g.next && p !in g.shaders
          && g.programs[p].vertex == g.vertexShader
          && g.programs[p].fragment in g.shaders
          && g.programs[p].fragment != g.vertexShader)
    && g.programs.Keys == (if g.active == 0 then {} else {g.active})
  }

  /** The fragment shader of the active program, if there is one. */
  function ActiveFragment(g: Gl): set<Name>
  {
    if g.active in g.programs then {g.programs[g.active].fragment} else {}
  }

  /** No shader object outlives its use: only the vertex shader and the active program's fragment shader are live. */
  ghost predicate NoLeak(g: Gl)
  {
    g.shaders <= {g.vertexShader} + ActiveFragment(g)
  }

  /**
   * The state once `Open` has compiled the shared vertex shader (name 1); no program
   * yet. Objects of the GUI program are not tracked: only reloads touch these names.
   */
  function Boot(): (g: Gl)
    ensures Valid(g) && NoLeak(g) && g.active == 0
  {
    Gl(0, 1, map[], {1}, 2)
  }

  function DeleteProgram(g: Gl, p: Name): Gl
  {
    g.(programs := g.programs - {p})
  }

  function DeleteShader(g: Gl, s: Name): Gl
  {
    g.(shaders := g.shaders - {s})
  }

  /**
   * `ReloadShader` as written: create a program and a fragment shader; on a
   * compile or link failure delete both and report false; on success delete the
   * previous program if there was one and make the new one active.  The new
   * fragment shader is never deleted.
   */
  function ReloadAsWritten(g: Gl, a: Attempt): (r: Outcome)
    requires Valid(g)
    ensures !Succeeds(a) ==> !r.ok && r.gl == g.(next := g.next + 2)
    ensures Succeeds(a) ==> && r.ok && r.gl.active !in g.programs && r.gl.active !in g.shaders
                            && r.gl.active != 0
                            && r.gl.programs.Keys == {r.gl.active}
                            && r.gl.programs[r.gl.active].vertex == g.vertexShader
                            && r.gl.programs[r.gl.active].source == a.source
                            && r.gl.programs[r.gl.active].fragment !in g.shaders
                            && r.gl.shaders == g.shaders + {r.gl.programs[r.gl.active].fragment}
    ensures Succeeds(a) ==> && r.gl.active == g.next && r.gl.next == g.next + 2
                            && r.gl.programs == map[g.next := Program(g.vertexShader, g.next + 1, a.source)]
    ensures r.gl.vertexShader == g.vertexShader
  {
    var prg, shd := g.next, g.next + 1;
    var created := g.(programs := g.programs[prg := Program(0, 0, a.source)],
                      shaders := g.shaders + {shd}, next := g.next + 2);
    if !a.compiles then
      Outcome(false, DeleteShader(DeleteProgram(created, prg), shd))
    else
      var linked := created.(programs := created.programs[prg := Program(g.vertexShader, shd, a.source)]);
      if !a.links then
        Outcome(false, DeleteShader(DeleteProgram(linked, prg), shd))
      else
        var retired := if g.active != 0 then DeleteProgram(linked, g.active) else linked;
        Outcome(true, retired.(active := prg))
  }

  /**
   * `ReloadShader` with the leak closed: the fragment shader is flagged for
   * deletion once linked, so it goes away with the program that uses it.
   */
  function Reload(g: Gl, a: Attempt): (r: Outcome)
    requires Valid(g)
    ensures !Succeeds(a) ==> !r.ok && r.gl == g.(next := g.next + 2)
    ensures Succeeds(a) ==> && r.ok && r.gl.active !in g.programs && r.gl.active !in g.shaders
                            && r.gl.active != 0
                            && r.gl.programs.Keys == {r.gl.active}
                            && r.gl.programs[r.gl.active].vertex == g.vertexShader
                            && r.gl.programs[r.gl.active].source == a.source
                            && r.gl.programs[r.gl.active].fragment !in g.shaders
                            && r.gl.shaders == g.shaders - ActiveFragment(g)
                                               + {r.gl.programs[r.gl.active].fragment}
    ensures Succeeds(a) ==> && r.gl.active == g.next && r.gl.next == g.next + 2
                            && r.gl.programs == map[g.next := Program(g.vertexShader, g.next + 1, a.source)]
    ensures r.gl.vertexShader == g.vertexShader
  {
    var r := ReloadAsWritten(g, a);
    if r.ok then Outcome(true, r.gl.(shaders := r.gl.shaders - ActiveFragment(g))) else r
  }

  lemma ReloadAsWrittenValid(g: Gl, a: Attempt)
    requires Valid(g)
    ensures Valid(ReloadAsWritten(g, a).gl)
  {
  }

  /** The corrected reload keeps the state well formed and leak-free. */
  lemma ReloadValid(g: Gl, a: Attempt)
    requires Valid(g) && NoLeak(g)
    ensures Valid(Reload(g, a).gl) && NoLeak(Reload(g, a).gl)
  {
    var r := Reload(g, a).gl;
    if Succeeds(a) {
      assert ActiveFragment(r) == {r.programs[r.active].fragment};
    }
  }

  /** Two successful reloads with the code as written: the first fragment shader is still live and no program uses it. */
  lemma ReloadAsWrittenLeaks()
    ensures var g1 := ReloadAsWritten(Boot(), Attempt("a", true, true)).gl;
      var g2 := ReloadAsWritten(g1, Attempt("b", true, true)).gl;
      && 3 in g2.shaders && 3 != g2.vertexShader && ActiveFragment(g2) == {5}
      && !NoLeak(g2)
  {
    var g1 := ReloadAsWritten(Boot(), Attempt("a", true, true)).gl;
    assert g1.shaders == {1, 3} && g1.active == 2;
    var g2 := ReloadAsWritten(g1, Attempt("b", true, true)).gl;
    assert g2.shaders == {1, 3, 5} && g2.active == 4 && g2.programs[4].fragment == 5;
  }

  /** A sequence of reloads, the last attempt applied last. */
  function ReloadAll(g: Gl, attempts: seq<Attempt>): (r: Gl)
    requires Valid(g) && NoLeak(g)
    ensures Valid(r) && NoLeak(r)
    decreases |attempts|
  {
    if |attempts| == 0 then g
    else
      var before := ReloadAll(g, attempts[..|attempts| - 1]);
      ReloadValid(before, attempts[|attempts| - 1]);
      Reload(before, attempts[|attempts| - 1]).gl
  }

  /** Whether any attempt in the sequence succeeds. */
  predicate AnySucceeds(attempts: seq<Attempt>)
  {
    exists i :: 0 <= i < |attempts| && Succeeds(attempts[i])
  }

  /** The index of the last successful attempt. */
  function LastSuccess(attempts: seq<Attempt>): (k: nat)
    requires AnySucceeds(attempts)
    ensures k < |attempts| && Succeeds(attempts[k])
    ensures forall j :: k < j < |attempts| ==> !Succeeds(attempts[j])
  {
    var n := |attempts| - 1;
    if Succeeds(attempts[n]) then n
    else
      assert AnySucceeds(attempts[..n]) by {
        var i :| 0 <= i < |attempts| && Succeeds(attempts[i]);
        assert attempts[..n][i] == attempts[i];
      }
      var k := LastSuccess(attempts[..n]);
      assert attempts[..n][k] == attempts[k];
      assert forall j :: k < j < n ==> attempts[..n][j] == attempts[j];
      k
  }

  /** A failing last attempt leaves the last success where it was in the earlier attempts. */
  lemma LastSuccessBeforeFailure(attempts: seq<Attempt>)
    requires AnySucceeds(attempts) && !Succeeds(attempts[|attempts| - 1])
    ensures AnySucceeds(attempts[..|attempts| - 1])
    ensures LastSuccess(attempts) == LastSuccess(attempts[..|attempts| - 1])
  {
    var i :| 0 <= i < |attempts| && Succeeds(attempts[i]);
    assert attempts[..|attempts| - 1][i] == attempts[i];
  }

  /** Without a success among the attempts, none among the earlier ones either. */
  lemma NoSuccessBefore(attempts: seq<Attempt>)
    requires |attempts| > 0 && !AnySucceeds(attempts)
    ensures !AnySucceeds(attempts[..|attempts| - 1]) && !Succeeds(attempts[|attempts| - 1])
  {
    var init := attempts[..|attempts| - 1];
    forall i | 0 <= i < |init|
      ensures !Succeeds(init[i])
    {
      assert init[i] == attempts[i];
    }
  }

  /**
   * After any sequence of reloads the active program runs the source of the last
   * attempt that compiled and linked.
   */
  lemma {:induction false} LastSuccessWins(g: Gl, attempts: seq<Attempt>)
    requires Valid(g) && NoLeak(g) && AnySucceeds(attempts)
    ensures var r := ReloadAll(g, attempts);
      r.active in r.programs && r.programs[r.active].source == attempts[LastSuccess(attempts)].source
    decreases |attempts|
  {
    var n := |attempts| - 1;
    if !Succeeds(attempts[n]) {
      LastSuccessBeforeFailure(attempts);
      LastSuccessWins(g, attempts[..n]);
    }
  }

  /** If no attempt compiles and links, the active program and every live object are as before. */
  lemma {:induction false} NoSuccessNoChange(g: Gl, attempts: seq<Attempt>)
    requires Valid(g) && NoLeak(g) && !AnySucceeds(attempts)
    ensures var r := ReloadAll(g, attempts);
      r.active == g.active && r.programs == g.programs && r.shaders == g.shaders
    decreases |attempts|
  {
    if |attempts| > 0 {
      NoSuccessBefore(attempts);
      NoSuccessNoChange(g, attempts[..|attempts| - 1]);
    }
  }

  /** Once a program is active, no sequence of reloads leaves the slot empty. */
  lemma {:induction false} NeverEmptyAgain(g: Gl, attempts: seq<Attempt>)
    requires Valid(g) && NoLeak(g) && g.active != 0
    ensures ReloadAll(g, attempts).active != 0
    decreases |attempts|
  {
    if |attempts| > 0 {
      NeverEmptyAgain(g, attempts[..|attempts| - 1]);
    }
  }

  /** A sequence of reloads as written, the last attempt applied last. */
  function ReloadAllAsWritten(g: Gl, attempts: seq<Attempt>): (r: Gl)
    requires Valid(g)
    ensures Valid(r)
    decreases |attempts|
  {
    if |attempts| == 0 then g
    else
      var before := ReloadAllAsWritten(g, attempts[..|attempts| - 1]);
      ReloadAsWrittenValid(before, attempts[|attempts| - 1]);
      ReloadAsWritten(before, attempts[|attempts| - 1]).gl
  }

  /**
   * The fix changes nothing but the set of live shaders: from the same state,
   * reloads as written and corrected reloads leave the same active program, the
   * same live programs, the same name counter and the same vertex shader.
   */
  lemma {:induction false} AsWrittenAgrees(g: Gl, attempts: seq<Attempt>)
    requires Valid(g) && NoLeak(g)
    ensures var fixed, written := ReloadAll(g, attempts), ReloadAllAsWritten(g, attempts);
      && fixed.active == written.active && fixed.programs == written.programs
      && fixed.next == written.next && fixed.vertexShader == written.vertexShader
    decreases |attempts|
  {
    if |attempts| > 0 {
      var n := |attempts| - 1;
      AsWrittenAgrees(g, attempts[..n]);
      ReloadStepAgrees(ReloadAll(g, attempts[..n]), ReloadAllAsWritten(g, attempts[..n]), attempts[n]);
    }
  }

  /** States equal up to their live shaders stay so after one reload each way. */
  lemma ReloadStepAgrees(fixed: Gl, written: Gl, a: Attempt)
    requires Valid(fixed) && Valid(written)
    requires fixed.active == written.active && fixed.programs == written.programs
    requires fixed.next == written.next && fixed.vertexShader == written.vertexShader
    ensures var f, w := Reload(fixed, a), ReloadAsWritten(written, a);
      && f.ok == w.ok && f.gl.active == w.gl.active && f.gl.programs == w.gl.programs
      && f.gl.next == w.gl.next && f.gl.vertexShader == w.gl.vertexShader
  {
  }

  /** `LastSuccessWins` holds for the code as written, from any state it reaches, leaked shaders and all. */
  lemma {:induction false} LastSuccessWinsAsWritten(g: Gl, attempts: seq<Attempt>)
    requires Valid(g) && AnySucceeds(attempts)
    ensures var r := ReloadAllAsWritten(g, attempts);
      r.active in r.programs && r.programs[r.active].source == attempts[LastSuccess(attempts)].source
    decreases |attempts|
  {
    var n := |attempts| - 1;
    if !Succeeds(attempts[n]) {
      LastSuccessBeforeFailure(attempts);
      LastSuccessWinsAsWritten(g, attempts[..n]);
    }
  }

  /** `NoSuccessNoChange` holds for the code as written: failed reloads leak nothing either. */
  lemma {:induction false} NoSuccessNoChangeAsWritten(g: Gl, attempts: seq<Attempt>)
    requires Valid(g) && !AnySucceeds(attempts)
    ensures var r := ReloadAllAsWritten(g, attempts);
      r.active == g.active && r.programs == g.programs && r.shaders == g.shaders
    decreases |attempts|
  {
    if |attempts| > 0 {
      NoSuccessBefore(attempts);
      NoSuccessNoChangeAsWritten(g, attempts[..|attempts| - 1]);
    }
  }

  /** `NeverEmptyAgain` holds for the code as written, from any state it reaches. */
  lemma {:induction false} NeverEmptyAgainAsWritten(g: Gl, attempts: seq<Attempt>)
    requires Valid(g) && g.active != 0
    ensures ReloadAllAsWritten(g, attempts).active != 0
    decreases |attempts|
  {
    if |attempts| > 0 {
      NeverEmptyAgainAsWritten(g, attempts[..|attempts| - 1]);
    }
  }
}

=== FILE: startup.dfy ===
/**
 * The shader start-up and per-frame uniform logic of `main` in src/Shade.cpp:
 * the last saved shader is tried first and the token-expanded default shader
 * only when that fails; the resolution uniform sent each frame uses a fixed
 * height rule.
 */
module Startup {
  import opened Wrappers
  import opened Tokens
  import Resolution
  import Shaders

  /** Size of the `szShader` character buffer. */
  const ShaderBuffer: nat := 65535

  /** The text `strlen` sees: everything before the first NUL. */
  function UntilNul(s: string): (r: string)
    ensures |r| <= |s| && r == s[..|r|] && '\0' !in r
    ensures |r| < |s| ==> s[|r|] == '\0'
  {
    if |s| == 0 || s[0] == '\0' then [] else [s[0]] + UntilNul(s[1..])
  }

  function Min(a: nat, b: nat): nat
  {
    if a <= b then a else b
  }

  /**
   * The shader file read as written: the buffer is zeroed, then up to 65535
   * bytes are read into it, filling it completely.  `strlen` stops at the first
   * NUL; when the buffer holds none it runs past the end, which is `None` here.
   */
  function ReadShaderAsWritten(file: string): (r: Option<string>)
    ensures r.None? <==> |file| >= ShaderBuffer && '\0' !in file[..ShaderBuffer]
    ensures r.Some? ==> '\0' !in r.value && |r.value| <= |file| && r.value == file[..|r.value|]
    ensures r.Some? && |r.value| < Min(|file|, ShaderBuffer) ==> file[|r.value|] == '\0'
    ensures r.Some? ==> |r.value| < ShaderBuffer
  {
    var filled := file[..Min(|file|, ShaderBuffer)];
    if '\0' in filled || |filled| < ShaderBuffer then Some(UntilNul(filled)) else None
  }

  /** A file of 65535 non-NUL bytes leaves the buffer unterminated. */
  lemma ReadShaderAsWrittenOverruns()
    ensures ReadShaderAsWritten(seq(ShaderBuffer, _ => 'a')).None?
  {
    var file := seq(ShaderBuffer, _ => 'a');
    assert file[..ShaderBuffer] == file;
    assert '\0' !in file;
  }

  /**
   * The shader file read with one byte of the buffer kept for the terminator:
   * at most 65534 bytes, up to the first NUL.
   */
  function ReadShader(file: string): (r: string)
    ensures |r| < ShaderBuffer && '\0' !in r
    ensures |r| <= |file| && r == file[..|r|]
    ensures |file| < ShaderBuffer && '\0' !in file ==> r == file
    ensures |r| < Min(|file|, ShaderBuffer - 1) ==> file[|r|] == '\0'
  {
    UntilNul(file[..Min(|file|, ShaderBuffer - 1)])
  }

  /** For every file shorter than the buffer the two reads agree. */
  lemma ReadShaderAgreesBelowLimit(file: string)
    requires |file| < ShaderBuffer
    ensures ReadShaderAsWritten(file) == Some(ReadShader(file))
  {
    assert file[..Min(|file|, ShaderBuffer)] == file[..Min(|file|, ShaderBuffer - 1)];
  }

  /** Whether the driver compiles and links a source. */
  predicate Works(src: string, compiles: string -> bool, links: string -> bool)
  {
    compiles(src) && links(src)
  }

  /** The default shader with its texture block expanded, as copied into the buffer. */
  function Fallback(defaultShader: string, textureNames: seq<string>): string
    requires MarkersOrdered(defaultShader, TexturesBegin, TexturesName, TexturesEnd) ==> Expandable(TexturesName, textureNames)
  {
    ReadShader(ReplaceTokens(defaultShader, TexturesBegin, TexturesName, TexturesEnd, textureNames))
  }

  /** How shader start-up ends: a program is active, or the default failed (the `assert(0)`). */
  datatype Startup = Started(gl: Shaders.Gl, attempted: seq<string>) | DefaultFailed(attempted: seq<string>)

  /**
   * Start-up from the GL state `Open` leaves: try the saved shader when the
   * file exists; if there is none or it fails, expand the texture block of the
   * default shader and try that.  The driver's verdicts are `compiles` and
   * `links`.
   */
  function StartShaders(saved: Option<string>, defaultShader: string, textureNames: seq<string>,
                        compiles: string -> bool, links: string -> bool): (r: Startup)
    requires MarkersOrdered(defaultShader, TexturesBegin, TexturesName, TexturesEnd) ==> Expandable(TexturesName, textureNames)
    ensures saved.Some? && Works(ReadShader(saved.value), compiles, links) ==> r.Started? && r.attempted == [ReadShader(saved.value)]
    ensures saved.None? ==> r.attempted == [Fallback(defaultShader, textureNames)]
    ensures saved.Some? && !Works(ReadShader(saved.value), compiles, links) ==> r.attempted == [ReadShader(saved.value), Fallback(defaultShader, textureNames)]
    ensures r.DefaultFailed? <==> && (saved.Some? ==> !Works(ReadShader(saved.value), compiles, links))
                                  && !Works(Fallback(defaultShader, textureNames), compiles, links)
    ensures r.Started? ==> r.gl.active in r.gl.programs && r.gl.programs[r.gl.active].source == r.attempted[|r.attempted| - 1]
    ensures r.Started? ==> Shaders.Valid(r.gl) && Shaders.NoLeak(r.gl)
  {
    var boot := Shaders.Boot();
    var first := if saved.Some? then
                   var src := ReadShader(saved.value);
                   Some((src, Shaders.Reload(boot, Shaders.Attempt(src, compiles(src), links(src)))))
                 else None;
    if first.Some? && first.value.1.ok then
      Shaders.ReloadValid(boot, Shaders.Attempt(first.value.0, compiles(first.value.0), links(first.value.0)));
      Started(first.value.1.gl, [first.value.0])
    else
      var g := if first.Some? then first.value.1.gl else boot;
      var tried := if first.Some? then [first.value.0] else [];
      var fallback := Fallback(defaultShader, textureNames);
      var a := Shaders.Attempt(fallback, compiles(fallback), links(fallback));
      var second := Shaders.Reload(g, a);
      if second.ok then
        Shaders.ReloadValid(g, a);
        Started(second.gl, tried + [fallback])
      else DefaultFailed(tried + [fallback])
  }

  /** The default shader is compiled exactly when the saved one is missing or fails. */
  lemma DefaultOnlyAsFallback(saved: Option<string>, defaultShader: string, textureNames: seq<string>,
                              compiles: string -> bool, links: string -> bool)
    requires MarkersOrdered(defaultShader, TexturesBegin, TexturesName, TexturesEnd) ==> Expandable(TexturesName, textureNames)
    ensures var r := StartShaders(saved, defaultShader, textureNames, compiles, links);
      var savedWorks := saved.Some? && Works(ReadShader(saved.value), compiles, links);
      |r.attempted| == (if saved.Some? then 1 else 0) + (if savedWorks then 0 else 1)
  {
  }

  /** The height the `v2Resolution` uniform is given, with the width passed through. */
  function ResolutionUniform(width: int, height: int): (r: (int, int))
    ensures r.0 == width
    ensures r.1 == 1080 <==> height == 1080
    ensures r.1 != 1080 ==> r.1 == 1440
  {
    (width, if height == 1080 then 1080 else 1440)
  }

  /**
   * The uniform for each render size: full-size docked sends 1920x1080; every
   * other configuration sends its width with height 1440.
   */
  lemma UniformPerMode(mode: Resolution.OperationMode, halved: bool)
    ensures var o := Resolution.ConfigureResolution(mode, halved);
      ResolutionUniform(o.width, o.height)
        == if mode.Docked? && !halved then (1920, 1080) else (o.width, 1440)
    ensures ResolutionUniform(Resolution.ConfigureResolution(Resolution.Handheld, false).width,
                              Resolution.ConfigureResolution(Resolution.Handheld, false).height) == (1280, 1440)
  {
  }
}

=== FILE: text.dfy ===
/**
 * String primitives with the semantics of `std::string` as the shader
 * tool uses them: `find` returns the first occurrence, `replace` splices a
 * token over one occurrence.  Also a left-to-right scanning substitution,
 * used as an independent reference for the replace loop.
 */
module Text {
  import opened Wrappers

  /** `pat` occurs in `s` starting at index `i`. */
  predicate MatchAt(s: string, pat: string, i: nat)
  {
    i + |pat| <= |s| && s[i..i + |pat|] == pat
  }

  /** `pat` occurs at `i` and nowhere before it. */
  ghost predicate FirstAt(s: string, pat: string, i: nat)
  {
    MatchAt(s, pat, i) && forall j: nat :: j < i ==> !MatchAt(s, pat, j)
  }

  /** The least index at or after `from` at which `pat` occurs. */
  function FindFrom(s: string, pat: string, from: nat): (r: Option<nat>)
    ensures r.Some? ==> from <= r.value && MatchAt(s, pat, r.value)
    ensures r.Some? ==> forall j: nat :: from <= j < r.value ==> !MatchAt(s, pat, j)
    ensures r.None? ==> forall j: nat :: from <= j ==> !MatchAt(s, pat, j)
    decreases |s| - from
  {
    if from + |pat| > |s| then None
    else if s[from..from + |pat|] == pat then Some(from)
    else FindFrom(s, pat, from + 1)
  }

  /** `std::string::find`: the first occurrence of `pat`, or `npos` (None). */
  function Find(s: string, pat: string): (r: Option<nat>)
    ensures r.Some? ==> FirstAt(s, pat, r.value)
    ensures r.None? ==> forall j: nat :: !MatchAt(s, pat, j)
  {
    FindFrom(s, pat, 0)
  }

  predicate Contains(s: string, pat: string)
  {
    Find(s, pat).Some?
  }

  /** `Find` is exactly the first occurrence, whichever way it is described. */
  lemma FindIsFirst(s: string, pat: string, i: nat)
    requires FirstAt(s, pat, i)
    ensures Find(s, pat) == Some(i)
  {
  }

  /** One iteration of the replace loop: the first occurrence of `pat` becomes `tok`. */
  function ReplaceFirst(s: string, pat: string, tok: string): (r: string)
    requires Contains(s, pat)
    ensures |r| == |s| - |pat| + |tok|
  {
    var p := Find(s, pat).value;
    s[..p] + tok + s[p + |pat|..]
  }

  /** Splitting a string at the first occurrence of `pat`. */
  lemma SplitAtFirst(s: string, pat: string)
    requires Contains(s, pat)
    ensures var p := Find(s, pat).value;
      s == s[..p] + pat + s[p + |pat|..]
  {
    var p := Find(s, pat).value;
    assert MatchAt(s, pat, p);
    assert s == s[..p] + s[p..p + |pat|] + s[p + |pat|..];
  }

  /** The token holds fewer copies of some character than the marker does. */
  predicate Shrinks(name: string, tok: string)
  {
    !(multiset(name) <= multiset(tok))
  }

  /** A character that the marker holds more often than the token. */
  ghost function Scarce(name: string, tok: string): (c: char)
    requires Shrinks(name, tok)
    ensures multiset(name)[c] > multiset(tok)[c]
  {
    assert exists c :: multiset(name)[c] > multiset(tok)[c];
    var c :| multiset(name)[c] > multiset(tok)[c];
    c
  }

  /** Every replacement strictly lowers the count of the scarce character. */
  lemma ReplaceFirstShrinks(s: string, name: string, tok: string)
    requires Shrinks(name, tok) && Contains(s, name)
    ensures multiset(ReplaceFirst(s, name, tok))[Scarce(name, tok)] < multiset(s)[Scarce(name, tok)]
  {
    var p := Find(s, name).value;
    SplitAtFirst(s, name);
    var a, b := s[..p], s[p + |name|..];
    assert multiset(s) == multiset(a) + multiset(name) + multiset(b) by {
      assert s == a + name + b;
    }
    assert multiset(ReplaceFirst(s, name, tok)) == multiset(a) + multiset(tok) + multiset(b);
  }

  /**
   * The replace loop `while (s.find(name) != npos) s.replace(s.find(name), ...)`:
   * repeated replacement of the first occurrence until none is left.
   */
  function Expand(s: string, name: string, tok: string): (r: string)
    requires Shrinks(name, tok)
    ensures !Contains(r, name)
    decreases multiset(s)[Scarce(name, tok)]
  {
    if Contains(s, name) then
      ReplaceFirstShrinks(s, name, tok);
      Expand(ReplaceFirst(s, name, tok), name, tok)
    else
      s
  }

  /** The replace loop run for at most `k` iterations. */
  function Steps(s: string, name: string, tok: string, k: nat): string
    decreases k
  {
    if k == 0 || !Contains(s, name) then s
    else Steps(ReplaceFirst(s, name, tok), name, tok, k - 1)
  }

  /** A token that itself contains the marker puts a marker back on every iteration. */
  lemma StepKeepsMarker(s: string, name: string, tok: string)
    requires Contains(tok, name) && Contains(s, name)
    ensures Contains(ReplaceFirst(s, name, tok), name)
  {
    var p := Find(s, name).value;
    var j := Find(tok, name).value;
    var r := ReplaceFirst(s, name, tok);
    assert MatchAt(tok, name, j);
    assert r == s[..p] + tok + s[p + |name|..];
    assert r[p + j..p + j + |name|] == tok[j..j + |name|];
    assert MatchAt(r, name, p + j);
  }

  /** Hence the loop never exits for such a token: no iteration count suffices. */
  lemma {:induction false} LoopNeverExits(s: string, name: string, tok: string, k: nat)
    requires Contains(tok, name) && Contains(s, name)
    ensures Contains(Steps(s, name, tok, k), name)
    decreases k
  {
    if k > 0 {
      StepKeepsMarker(s, name, tok);
      LoopNeverExits(ReplaceFirst(s, name, tok), name, tok, k - 1);
    }
  }

  /** Every occurrence of the marker's first character begins a marker. */
  ghost predicate Anchored(s: string, name: string)
    requires |name| > 0
  {
    forall i :: 0 <= i < |s| && s[i] == name[0] ==> MatchAt(s, name, i)
  }

  /** Reference substitution: scan left to right, replacing each marker met. */
  function Subst(s: string, name: string, tok: string): string
    requires |name| > 0
    decreases |s|
  {
    if |s| == 0 then s
    else if MatchAt(s, name, 0) then tok + Subst(s[|name|..], name, tok)
    else [s[0]] + Subst(s[1..], name, tok)
  }

  /** Find skips a prefix in which the pattern cannot start. */
  lemma FindShift(p: string, x: string, pat: string)
    requires forall i: nat :: i < |p| ==> !MatchAt(p + x, pat, i)
    ensures Find(p + x, pat) == (if Contains(x, pat) then Some(|p| + Find(x, pat).value) else None)
  {
    var s := p + x;
    forall j: nat
      ensures MatchAt(s, pat, |p| + j) <==> MatchAt(x, pat, j)
    {
      if |p| + j + |pat| <= |s| {
        assert s[|p| + j..|p| + j + |pat|] == x[j..j + |pat|];
      }
    }
    if Contains(x, pat) {
      var j := Find(x, pat).value;
      assert MatchAt(s, pat, |p| + j);
      forall k: nat | k < |p| + j
        ensures !MatchAt(s, pat, k)
      {
        if k >= |p| {
          assert !MatchAt(x, pat, k - |p|);
        }
      }
      FindIsFirst(s, pat, |p| + j);
    } else {
      forall j: nat
        ensures !MatchAt(s, pat, j)
      {
        if j >= |p| {
          assert !MatchAt(x, pat, j - |p|);
        }
      }
    }
  }

  /** A string free of the pattern's first character holds no match. */
  lemma NoLeadNoMatch(s: string, pat: string, i: nat)
    requires |pat| > 0 && i < |s| && s[i] != pat[0]
    ensures !MatchAt(s, pat, i)
  {
    if i + |pat| <= |s| {
      assert s[i..i + |pat|][0] == s[i];
    }
  }

  /** A mismatch at offset `k` of the pattern rules out a match at `i`. */
  lemma MismatchAt(s: string, pat: string, i: nat, k: nat)
    requires k < |pat| && i + k < |s| && s[i + k] != pat[k]
    ensures !MatchAt(s, pat, i)
  {
    if i + |pat| <= |s| {
      assert s[i..i + |pat|][k] == s[i + k];
    }
  }

  /** A string that never holds the pattern's first character does not contain it. */
  lemma NoLeadNoContains(s: string, pat: string)
    requires |pat| > 0 && pat[0] !in s
    ensures !Contains(s, pat)
  {
    forall i: nat
      ensures !MatchAt(s, pat, i)
    {
      if i < |s| {
        NoLeadNoMatch(s, pat, i);
      }
    }
  }

  /** The replace loop leaves alone a prefix that holds no marker start. */
  lemma {:induction false} ExpandSkipsPrefix(p: string, x: string, name: string, tok: string)
    requires Shrinks(name, tok) && |name| > 0 && name[0] !in p
    ensures Expand(p + x, name, tok) == p + Expand(x, name, tok)
    decreases multiset(x)[Scarce(name, tok)]
  {
    forall i: nat | i < |p|
      ensures !MatchAt(p + x, name, i)
    {
      assert (p + x)[i] == p[i];
      NoLeadNoMatch(p + x, name, i);
    }
    FindShift(p, x, name);
    if Contains(x, name) {
      var j := Find(x, name).value;
      assert MatchAt(x, name, j);
      var s := p + x;
      assert ReplaceFirst(s, name, tok) == p + ReplaceFirst(x, name, tok) by {
        assert s[..|p| + j] == p + x[..j];
        assert s[|p| + j + |name|..] == x[j + |name|..];
      }
      ReplaceFirstShrinks(x, name, tok);
      ExpandSkipsPrefix(p, ReplaceFirst(x, name, tok), name, tok);
    }
  }

  /** The scan copies a prefix that holds no marker start. */
  lemma {:induction false} SubstSkipsPrefix(a: string, y: string, name: string, tok: string)
    requires |name| > 0 && name[0] !in a
    ensures Subst(a + y, name, tok) == a + Subst(y, name, tok)
    decreases |a|
  {
    if |a| == 0 {
      assert a + y == y;
    } else {
      var s := a + y;
      assert s[0] == a[0];
      NoLeadNoMatch(s, name, 0);
      assert s[1..] == a[1..] + y;
      SubstSkipsPrefix(a[1..], y, name, tok);
      assert [a[0]] + a[1..] == a;
    }
  }

  /** Without a marker the replace loop does nothing. */
  lemma ExpandNoMarker(s: string, name: string, tok: string)
    requires Shrinks(name, tok) && !Contains(s, name)
    ensures Expand(s, name, tok) == s
  {
  }

  /** A marker at the very front is the first one replaced. */
  lemma ExpandFront(name: string, c: string, tok: string)
    requires Shrinks(name, tok)
    ensures Expand(name + c, name, tok) == Expand(tok + c, name, tok)
  {
    var rest := name + c;
    assert rest[..|name|] == name;
    assert MatchAt(rest, name, 0);
    FindIsFirst(rest, name, 0);
    assert rest[|name|..] == c;
    assert ReplaceFirst(rest, name, tok) == tok + c;
  }

  /** A template holding a single marker, with its first character nowhere else, gets the token in its place. */
  lemma ExpandSingle(a: string, name: string, c: string, tok: string)
    requires |name| > 0 && name[0] !in a && name[0] !in c && name[0] !in tok
    ensures Shrinks(name, tok)
    ensures Expand(a + name + c, name, tok) == a + tok + c
  {
    assert multiset(name)[name[0]] > 0 == multiset(tok)[name[0]];
    assert a + name + c == a + (name + c);
    ExpandSkipsPrefix(a, name + c, name, tok);
    ExpandFront(name, c, tok);
    assert name[0] !in tok + c;
    NoLeadNoContains(tok + c, name);
    ExpandNoMarker(tok + c, name, tok);
    assert a + (tok + c) == a + tok + c;
  }

  /** Before the first marker of an anchored string there is no marker start. */
  lemma AnchoredPrefix(s: string, name: string)
    requires |name| > 0 && Anchored(s, name) && Contains(s, name)
    ensures name[0] !in s[..Find(s, name).value]
  {
    var p := Find(s, name).value;
    forall i | 0 <= i < p
      ensures s[i] != name[0]
    {
      assert !MatchAt(s, name, i);
    }
  }

  /** What follows the first marker of an anchored string is anchored too. */
  lemma AnchoredSuffix(s: string, name: string, k: nat)
    requires |name| > 0 && Anchored(s, name) && k <= |s|
    ensures Anchored(s[k..], name)
  {
    var b := s[k..];
    forall i | 0 <= i < |b| && b[i] == name[0]
      ensures MatchAt(b, name, i)
    {
      assert s[k + i] == b[i];
      assert MatchAt(s, name, k + i);
      assert b[i..i + |name|] == s[k + i..k + i + |name|];
    }
  }

  /** The scan replaces a marker at the front and carries on after it. */
  lemma SubstAtMarker(a: string, b: string, name: string, tok: string)
    requires |name| > 0 && name[0] !in a
    ensures Subst(a + name + b, name, tok) == a + tok + Subst(b, name, tok)
  {
    assert a + name + b == a + (name + b);
    SubstSkipsPrefix(a, name + b, name, tok);
    assert (name + b)[..|name|] == name;
    assert MatchAt(name + b, name, 0);
    assert (name + b)[|name|..] == b;
  }

  /**
   * When the marker's first character is absent from the token and only ever
   * starts a marker in the template, the replace loop computes exactly the
   * left-to-right scan: every marker replaced by the token, nothing else touched.
   */
  lemma {:induction false} ExpandIsSubst(s: string, name: string, tok: string)
    requires |name| > 0 && name[0] !in tok && Anchored(s, name)
    ensures Shrinks(name, tok) && Expand(s, name, tok) == Subst(s, name, tok)
    decreases |s|
  {
    assert multiset(name)[name[0]] > 0 == multiset(tok)[name[0]];
    if Contains(s, name) {
      var p := Find(s, name).value;
      SplitAtFirst(s, name);
      var a, b := s[..p], s[p + |name|..];
      AnchoredPrefix(s, name);
      AnchoredSuffix(s, name, p + |name|);
      assert ReplaceFirst(s, name, tok) == (a + tok) + b;
      ExpandSkipsPrefix(a + tok, b, name, tok);
      ExpandIsSubst(b, name, tok);
      SubstAtMarker(a, b, name, tok);
    } else {
      assert name[0] !in s by {
        forall i | 0 <= i < |s|
          ensures s[i] != name[0]
        {
          assert !MatchAt(s, name, i);
        }
      }
      SubstSkipsPrefix(s, [], name, tok);
      assert s + [] == s;
    }
  }
}

=== FILE: textures.dfy ===
/**
 * Texture creation in src/Renderer.cpp: the global texture-unit counter shared
 * by file and 1D textures, and the alpha-mask upload that packs each 8-bit
 * coverage value into a white RGBA pixel.  Decoding an image file is an input.
 */
module Textures {
  import opened Wrappers

  datatype Kind = OneD | TwoD

  /** A created texture; its GL name is not modelled. */
  datatype Texture = Texture(width: int, height: int, kind: Kind, unit: int)

  /** Dimensions of a decoded image file. */
  datatype Size = Size(width: int, height: int)

  /** A texture together with the value of the unit counter after creating it. */
  datatype Created = Created(texture: Option<Texture>, nextUnit: int)

  /**
   * `CreateRGBA8TextureFromFile`: when the file does not decode nothing is
   * created and the counter stays; otherwise the texture takes the current unit
   * and the counter advances.
   */
  function CreateFromFile(unit: int, decoded: Option<Size>): (r: Created)
    ensures decoded.None? <==> r.texture.None?
    ensures decoded.None? ==> r.nextUnit == unit
    ensures decoded.Some? ==> && r.texture.value.unit == unit && r.nextUnit == unit + 1
                              && r.texture.value.kind == TwoD
                              && r.texture.value.width == decoded.value.width
                              && r.texture.value.height == decoded.value.height
  {
    match decoded
    case None => Created(None, unit)
    case Some(size) => Created(Some(Texture(size.width, size.height, TwoD, unit)), unit + 1)
  }

  /**
   * `Create1DR32Texture`: a w-by-1 texture that always takes the next unit.  The
   * width is a size: `new float[w]` throws on a negative one before any unit is taken.
   */
  function Create1D(unit: int, w: int): (r: Created)
    requires 0 <= w
    ensures r.texture.Some? && r.nextUnit == unit + 1
    ensures r.texture.value == Texture(w, 1, OneD, unit)
  {
    Created(Some(Texture(w, 1, OneD, unit)), unit + 1)
  }

  /** The pixel `CreateA8TextureFromData` uploads for one coverage byte. */
  function PackPixel(a: bv8): bv32
  {
    ((a as bv32) << 24) | 0xFF_FFFF
  }

  /** The coverage byte a packed pixel carries in its top byte. */
  function Alpha(p: bv32): bv8
  {
    (p >> 24) as bv8
  }

  /** Each packed pixel is opaque white in its low three bytes and carries the coverage in the top byte. */
  lemma PackPixelShape(a: bv8)
    ensures PackPixel(a) & 0xFF_FFFF == 0xFF_FFFF
    ensures Alpha(PackPixel(a)) == a
  {
  }

  /** A pixel with white low bytes is the packing of its own top byte: packing loses nothing and adds nothing. */
  lemma PackPixelUnique(p: bv32)
    requires p & 0xFF_FFFF == 0xFF_FFFF
    ensures PackPixel(Alpha(p)) == p
  {
  }

  /** The upload loop of `CreateA8TextureFromData`. */
  method PackAlpha(data: seq<bv8>) returns (pixels: seq<bv32>)
    ensures |pixels| == |data|
    ensures forall i :: 0 <= i < |data| ==> pixels[i] & 0xFF_FFFF == 0xFF_FFFF && Alpha(pixels[i]) == data[i]
  {
    pixels := [];
    var i := 0;
    while i < |data|
      invariant 0 <= i <= |data| && |pixels| == i
      invariant forall j :: 0 <= j < i ==> pixels[j] & 0xFF_FFFF == 0xFF_FFFF && Alpha(pixels[j]) == data[j]
    {
      PackPixelShape(data[i]);
      pixels := pixels + [PackPixel(data[i])];
      i := i + 1;
    }
  }

  /** Reading back the coverage of every packed pixel gives the mask that was uploaded. */
  method UnpackAlpha(pixels: seq<bv32>) returns (data: seq<bv8>)
    ensures |data| == |pixels|
    ensures forall i :: 0 <= i < |pixels| ==> data[i] == Alpha(pixels[i])
  {
    data := [];
    var i := 0;
    while i < |pixels|
      invariant 0 <= i <= |pixels| && |data| == i
      invariant forall j :: 0 <= j < i ==> data[j] == Alpha(pixels[j])
    {
      data := data + [Alpha(pixels[i])];
      i := i + 1;
    }
  }

  /** Packing then unpacking an alpha mask returns the mask. */
  method AlphaRoundTrip(data: seq<bv8>) returns (back: seq<bv8>)
    ensures back == data
  {
    var pixels := PackAlpha(data);
    back := UnpackAlpha(pixels);
  }

  /**
   * `CreateA8TextureFromData`: a w-by-h mask uploaded as packed pixels; it
   * always reports unit 0 and leaves the counter alone.  Only the first w * h
   * bytes of the data are read; the sizes themselves are stored as given.
   */
  method CreateAlphaMask(unit: int, w: int, h: int, data: seq<bv8>) returns (r: Created, pixels: seq<bv32>)
    requires 0 <= w * h <= |data|
    ensures r.texture == Some(Texture(w, h, TwoD, 0)) && r.nextUnit == unit
    ensures |pixels| == w * h
    ensures forall i :: 0 <= i < |pixels| ==> PackPixel(data[i]) == pixels[i]
  {
    pixels := PackAlpha(data[..w * h]);
    forall i | 0 <= i < |pixels|
      ensures PackPixel(data[i]) == pixels[i]
    {
      PackPixelUnique(pixels[i]);
    }
    r := Created(Some(Texture(w, h, TwoD, 0)), unit);
  }

  /** A texture-creation call as it reaches the renderer. */
  datatype Request = FromFile(decoded: Option<Size>) | OneDim(length: nat) | AlphaMask(w: int, h: int)

  /** Whether a request takes a unit from the counter when it succeeds. */
  predicate TakesUnit(q: Request)
  {
    match q
    case FromFile(decoded) => decoded.Some?
    case OneDim(_) => true
    case AlphaMask(_, _) => false
  }

  function Create(unit: int, q: Request): Created
  {
    match q
    case FromFile(decoded) => CreateFromFile(unit, decoded)
    case OneDim(w) => Create1D(unit, w)
    case AlphaMask(w, h) => Created(Some(Texture(w, h, TwoD, 0)), unit)
  }

  /** How many requests in the sequence take a unit. */
  function CountTaking(qs: seq<Request>): nat
  {
    if |qs| == 0 then 0 else CountTaking(qs[..|qs| - 1]) + (if TakesUnit(qs[|qs| - 1]) then 1 else 0)
  }

  /** Results of a run of creation calls, in order, and the counter afterwards. */
  datatype Run = Run(textures: seq<Option<Texture>>, nextUnit: int)

  function CreateAll(unit: int, qs: seq<Request>): (r: Run)
    ensures |r.textures| == |qs|
    decreases |qs|
  {
    if |qs| == 0 then Run([], unit)
    else
      var before := CreateAll(unit, qs[..|qs| - 1]);
      var c := Create(before.nextUnit, qs[|qs| - 1]);
      Run(before.textures + [c.texture], c.nextUnit)
  }

  /**
   * Over any run of creation calls starting from counter u: the counter ends
   * at u plus the number of unit-taking requests; every unit-taking texture gets
   * a unit in [u, end) distinct from every other's; masks get 0; failed decodes
   * produce nothing.
   */
  lemma {:induction false} UnitsDistinct(u: int, qs: seq<Request>)
    ensures var r := CreateAll(u, qs);
      && r.nextUnit == u + CountTaking(qs)
      && (forall i :: 0 <= i < |qs| ==> (r.textures[i].Some? <==> !(qs[i].FromFile? && qs[i].decoded.None?)))
      && (forall i :: 0 <= i < |qs| && TakesUnit(qs[i]) ==>
            u <= r.textures[i].value.unit < r.nextUnit)
      && (forall i :: 0 <= i < |qs| && qs[i].AlphaMask? ==> r.textures[i].value.unit == 0)
      && (forall i, j :: 0 <= i < j < |qs| && TakesUnit(qs[i]) && TakesUnit(qs[j]) ==>
            r.textures[i].value.unit < r.textures[j].value.unit)
    decreases |qs|
  {
    if |qs| > 0 {
      UnitsDistinct(u, qs[..|qs| - 1]);
      var n := |qs| - 1;
      var before := CreateAll(u, qs[..n]);
      var r := CreateAll(u, qs);
      assert r.textures == before.textures + [Create(before.nextUnit, qs[n]).texture];
      forall i | 0 <= i < n
        ensures r.textures[i] == before.textures[i] && qs[i] == qs[..n][i]
      {
      }
    }
  }
}

=== FILE: tokens.dfy ===
/**
 * `ReplaceTokens` from src/Shade.cpp: expansion of the
 * `{%textures:begin%} ... {%textures:name%} ... {%textures:end%}` block of the
 * default shader into one copy of the inner template per texture name.
 */
module Tokens {
  import opened Wrappers
  import opened Text

  const TexturesBegin: string := "{%textures:begin%}"
  const TexturesName: string := "{%textures:name%}"
  const TexturesEnd: string := "{%textures:end%}"

  /** All three markers occur and their first occurrences are strictly ordered. */
  predicate MarkersOrdered(s: string, b: string, n: string, e: string)
  {
    && Contains(s, b) && Contains(s, n) && Contains(s, e)
    && Find(s, b).value < Find(s, n).value < Find(s, e).value
  }

  /** Every token lets the replace loop terminate. */
  predicate Expandable(name: string, tokens: seq<string>)
  {
    forall i :: 0 <= i < |tokens| ==> Shrinks(name, tokens[i])
  }

  /**
   * The inner template: from the end of the first begin marker to the first end
   * marker.  When the end marker starts inside the begin marker, the unsigned
   * length wraps around and `substr` takes the rest of the string.
   */
  function Template(s: string, b: string, n: string, e: string): string
    requires MarkersOrdered(s, b, n, e)
  {
    var start := Find(s, b).value + |b|;
    var stop := Find(s, e).value;
    if start <= stop then s[start..stop] else s[start..]
  }

  /** One expansion of the template per token, in token order. */
  function ExpandEach(t: string, name: string, tokens: seq<string>): string
    requires Expandable(name, tokens)
    decreases |tokens|
  {
    if |tokens| == 0 then []
    else Expand(t, name, tokens[0]) + ExpandEach(t, name, tokens[1..])
  }

  /**
   * The whole block, from the first begin marker to the end of the first end
   * marker, is replaced by the expansions; the text around it is kept.
   */
  function ReplaceTokens(s: string, b: string, n: string, e: string, tokens: seq<string>): (r: string)
    requires MarkersOrdered(s, b, n, e) ==> Expandable(n, tokens)
    ensures !MarkersOrdered(s, b, n, e) ==> r == s
  {
    if MarkersOrdered(s, b, n, e) then
      s[..Find(s, b).value] + ExpandEach(Template(s, b, n, e), n, tokens) + s[Find(s, e).value + |e|..]
    else
      s
  }

  /** The guard and the block boundaries, from where the markers are first found. */
  lemma LocateMarkers(s: string, b: string, n: string, e: string, ib: nat, iN: nat, ie: nat)
    requires FirstAt(s, b, ib) && FirstAt(s, n, iN) && FirstAt(s, e, ie)
    ensures Find(s, b) == Some(ib) && Find(s, n) == Some(iN) && Find(s, e) == Some(ie)
    ensures MarkersOrdered(s, b, n, e) <==> ib < iN < ie
    ensures ib + |b| <= |s| && ie + |e| <= |s|
  {
    FindIsFirst(s, b, ib);
    FindIsFirst(s, n, iN);
    FindIsFirst(s, e, ie);
  }

  /** A missing marker leaves the shader text as it was. */
  lemma MissingMarkerNoOp(s: string, b: string, n: string, e: string, tokens: seq<string>)
    requires (forall i: nat :: !MatchAt(s, b, i)) || (forall i: nat :: !MatchAt(s, n, i))
          || (forall i: nat :: !MatchAt(s, e, i))
    ensures ReplaceTokens(s, b, n, e, tokens) == s
  {
    assert !MarkersOrdered(s, b, n, e);
  }

  /** Markers whose first occurrences are not strictly ordered leave the text as it was. */
  lemma MisorderedMarkersNoOp(s: string, b: string, n: string, e: string, tokens: seq<string>,
                              ib: nat, iN: nat, ie: nat)
    requires FirstAt(s, b, ib) && FirstAt(s, n, iN) && FirstAt(s, e, ie)
    requires !(ib < iN < ie)
    ensures ReplaceTokens(s, b, n, e, tokens) == s
  {
    LocateMarkers(s, b, n, e, ib, iN, ie);
  }

  lemma ShapeByFind(s: string, b: string, n: string, e: string, tokens: seq<string>,
                    ib: nat, iN: nat, ie: nat, pre: string, t: string, post: string)
    requires Find(s, b) == Some(ib) && Find(s, n) == Some(iN) && Find(s, e) == Some(ie)
    requires ib < iN < ie && ib + |b| <= |s| && Expandable(n, tokens)
    requires pre == s[..ib] && post == s[ie + |e|..]
    requires t == if ib + |b| <= ie then s[ib + |b|..ie] else s[ib + |b|..]
    ensures ReplaceTokens(s, b, n, e, tokens) == pre + ExpandEach(t, n, tokens) + post
  {
    assert MarkersOrdered(s, b, n, e);
    assert Template(s, b, n, e) == t;
    var x := ExpandEach(t, n, tokens);
    assert ReplaceTokens(s, b, n, e, tokens) == s[..Find(s, b).value] + x + s[Find(s, e).value + |e|..];
  }

  /**
   * With the markers first found at ib < iN < ie and the end marker after the
   * begin marker, the result is the text before the block, the expansions of
   * the text between the markers, and the text after the block.
   */
  lemma ExpansionShape(s: string, b: string, n: string, e: string, tokens: seq<string>,
                       ib: nat, iN: nat, ie: nat)
    requires FirstAt(s, b, ib) && FirstAt(s, n, iN) && FirstAt(s, e, ie)
    requires ib < iN < ie && ib + |b| <= ie && Expandable(n, tokens)
    ensures ReplaceTokens(s, b, n, e, tokens)
         == s[..ib] + ExpandEach(s[ib + |b|..ie], n, tokens) + s[ie + |e|..]
  {
    LocateMarkers(s, b, n, e, ib, iN, ie);
    ShapeByFind(s, b, n, e, tokens, ib, iN, ie, s[..ib], s[ib + |b|..ie], s[ie + |e|..]);
  }

  /** When the first end marker overlaps the begin marker, the template runs to the end of the text. */
  lemma OverlappingMarkers(s: string, b: string, n: string, e: string, tokens: seq<string>,
                           ib: nat, iN: nat, ie: nat)
    requires FirstAt(s, b, ib) && FirstAt(s, n, iN) && FirstAt(s, e, ie)
    requires ib < iN < ie < ib + |b| && Expandable(n, tokens)
    ensures ReplaceTokens(s, b, n, e, tokens)
         == s[..ib] + ExpandEach(s[ib + |b|..], n, tokens) + s[ie + |e|..]
  {
    LocateMarkers(s, b, n, e, ib, iN, ie);
    ShapeByFind(s, b, n, e, tokens, ib, iN, ie, s[..ib], s[ib + |b|..], s[ie + |e|..]);
  }

  /** With no tokens the whole marker block disappears. */
  lemma NoTokensRemovesBlock(s: string, b: string, n: string, e: string, ib: nat, iN: nat, ie: nat)
    requires FirstAt(s, b, ib) && FirstAt(s, n, iN) && FirstAt(s, e, ie) && ib < iN < ie
    ensures ReplaceTokens(s, b, n, e, []) == s[..ib] + s[ie + |e|..]
  {
    LocateMarkers(s, b, n, e, ib, iN, ie);
  }

  /** Expansions appear in token order: expanding a concatenated list concatenates the expansions. */
  lemma {:induction false} ExpandEachInOrder(t: string, name: string, xs: seq<string>, ys: seq<string>)
    requires Expandable(name, xs) && Expandable(name, ys)
    ensures Expandable(name, xs + ys)
    ensures ExpandEach(t, name, xs + ys) == ExpandEach(t, name, xs) + ExpandEach(t, name, ys)
    decreases |xs|
  {
    assert Expandable(name, xs + ys) by {
      forall i | 0 <= i < |xs + ys|
        ensures Shrinks(name, (xs + ys)[i])
      {
        if i >= |xs| {
          assert (xs + ys)[i] == ys[i - |xs|];
        }
      }
    }
    if |xs| > 0 {
      assert (xs + ys)[1..] == xs[1..] + ys;
      assert Expandable(name, xs[1..]) by {
        forall i | 0 <= i < |xs| - 1
          ensures Shrinks(name, xs[1..][i])
        {
          assert xs[1..][i] == xs[i + 1];
        }
      }
      ExpandEachInOrder(t, name, xs[1..], ys);
    } else {
      assert xs + ys == ys;
    }
  }

  // ---------------------------------------------------------------------------
  // The block of the default shader

  const SamplerDecl: string := "uniform sampler2D "
  /** Inner template of the default shader's block. */
  const SamplerTemplate: string := SamplerDecl + TexturesName + ";\n"

  /** One sampler declaration per texture name. */
  function Declarations(tokens: seq<string>): string
  {
    if |tokens| == 0 then [] else SamplerDecl + tokens[0] + ";\n" + Declarations(tokens[1..])
  }

  predicate BraceFree(tokens: seq<string>)
  {
    forall i :: 0 <= i < |tokens| ==> '{' !in tokens[i]
  }

  lemma MarkerFacts()
    ensures |TexturesBegin| == 18 && |TexturesName| == 17 && |TexturesEnd| == 16
    ensures |SamplerDecl| == 18 && |SamplerTemplate| == 37
    ensures TexturesBegin[0] == '{' && '{' !in TexturesBegin[1..]
    ensures TexturesName[0] == '{' && '{' !in TexturesName[1..]
    ensures TexturesEnd[0] == '{' && '{' !in SamplerDecl
    ensures TexturesBegin[11] == 'b' && TexturesName[11] == 'n' && TexturesEnd[11] == 'e'
  {
  }

  lemma BraceFreeExpandable(tokens: seq<string>)
    requires BraceFree(tokens)
    ensures Expandable(TexturesName, tokens)
  {
    MarkerFacts();
    assert multiset(TexturesName)['{'] > 0;
    forall i | 0 <= i < |tokens|
      ensures Shrinks(TexturesName, tokens[i])
    {
      assert multiset(tokens[i])['{'] == 0;
    }
  }

  lemma SamplerFacts()
    ensures '{' !in SamplerDecl && TexturesName[0] == '{' && '{' !in ";\n"
  {
  }

  /** The default template yields one declaration naming the token. */
  lemma ExpandSampler(tok: string)
    requires '{' !in tok
    ensures Shrinks(TexturesName, tok)
    ensures Expand(SamplerTemplate, TexturesName, tok) == SamplerDecl + tok + ";\n"
  {
    SamplerFacts();
    ExpandSingle(SamplerDecl, TexturesName, ";\n", tok);
  }

  lemma {:induction false} ExpandSamplers(tokens: seq<string>)
    requires BraceFree(tokens)
    ensures Expandable(TexturesName, tokens)
    ensures ExpandEach(SamplerTemplate, TexturesName, tokens) == Declarations(tokens)
    decreases |tokens|
  {
    BraceFreeExpandable(tokens);
    if |tokens| > 0 {
      ExpandSampler(tokens[0]);
      assert BraceFree(tokens[1..]) by {
        forall i | 0 <= i < |tokens| - 1
          ensures '{' !in tokens[1..][i]
        {
          assert tokens[1..][i] == tokens[i + 1];
        }
      }
      ExpandSamplers(tokens[1..]);
    }
  }

  lemma HeadHoldsNoMarker(head: string, r: string, pat: string)
    requires |pat| > 0 && pat[0] !in head
    ensures forall i: nat :: i < |head| ==> !MatchAt(head + r, pat, i)
  {
    forall i: nat | i < |head|
      ensures !MatchAt(head + r, pat, i)
    {
      assert (head + r)[i] == head[i];
      NoLeadNoMatch(head + r, pat, i);
    }
  }

  /** Where the three markers are first found in a shader built around the default block. */
  lemma DefaultBlockMarkers(head: string, tail: string)
    requires '{' !in head
    ensures var s := head + TexturesBegin + SamplerTemplate + TexturesEnd + tail;
      && Find(s, TexturesBegin) == Some(|head|)
      && Find(s, TexturesName) == Some(|head| + 36)
      && Find(s, TexturesEnd) == Some(|head| + 55)
  {
    MarkerFacts();
    var s := head + TexturesBegin + SamplerTemplate + TexturesEnd + tail;
    var r := TexturesBegin + SamplerTemplate + TexturesEnd + tail;
    Regroup(head, TexturesBegin, SamplerTemplate, TexturesEnd, tail);
    assert r[..18] == TexturesBegin;
    assert r[36..53] == TexturesName;
    assert r[55..71] == TexturesEnd;
    assert |r| >= 71;
    forall j | 0 < j < 55 && j != 36
      ensures r[j] != '{'
    {
      if j < 18 {
        assert r[j] == TexturesBegin[1..][j - 1];
      } else if j < 36 {
        assert r[j] == SamplerDecl[j - 18];
      } else if j < 53 {
        assert r[j] == TexturesName[1..][j - 37];
      } else {
        assert r[j] == ";\n"[j - 53];
      }
    }
    assert r[11] == 'b' && r[47] == 'n';
    HeadHoldsNoMarker(head, r, TexturesBegin);
    HeadHoldsNoMarker(head, r, TexturesName);
    HeadHoldsNoMarker(head, r, TexturesEnd);
    assert FirstAt(r, TexturesBegin, 0);
    forall j: nat | j < 36
      ensures !MatchAt(r, TexturesName, j)
    {
      if j == 0 {
        MismatchAt(r, TexturesName, 0, 11);
      } else {
        NoLeadNoMatch(r, TexturesName, j);
      }
    }
    assert FirstAt(r, TexturesName, 36);
    forall j: nat | j < 55
      ensures !MatchAt(r, TexturesEnd, j)
    {
      if j == 0 {
        MismatchAt(r, TexturesEnd, 0, 11);
      } else if j == 36 {
        MismatchAt(r, TexturesEnd, 36, 11);
      } else {
        NoLeadNoMatch(r, TexturesEnd, j);
      }
    }
    assert FirstAt(r, TexturesEnd, 55);
    FindIsFirst(r, TexturesBegin, 0);
    FindIsFirst(r, TexturesName, 36);
    FindIsFirst(r, TexturesEnd, 55);
    FindShift(head, r, TexturesBegin);
    FindShift(head, r, TexturesName);
    FindShift(head, r, TexturesEnd);
  }

  /** A block laid out as head, begin marker, template, end marker, tail. */
  lemma BlockAt(head: string, b: string, t: string, e: string, tail: string, n: string,
                iN: nat, tokens: seq<string>)
    requires var s := head + b + t + e + tail;
      && Find(s, b) == Some(|head|) && Find(s, n) == Some(iN)
      && Find(s, e) == Some(|head| + |b| + |t|)
      && |head| < iN < |head| + |b| + |t|
    requires Expandable(n, tokens)
    ensures ReplaceTokens(head + b + t + e + tail, b, n, e, tokens)
         == head + ExpandEach(t, n, tokens) + tail
  {
    var s := head + b + t + e + tail;
    var ie := |head| + |b| + |t|;
    SliceParts(head, b, t, e, tail);
    assert |head| + |b| <= ie && ie + |e| <= |s|;
    assert t == s[|head| + |b|..ie];
    ShapeByFind(s, b, n, e, tokens, |head|, iN, ie, head, t, tail);
  }

  lemma Regroup(head: string, b: string, t: string, e: string, tail: string)
    ensures head + b + t + e + tail == head + (b + t + e + tail)
  {
  }

  lemma SliceParts(head: string, b: string, t: string, e: string, tail: string)
    ensures var s := head + b + t + e + tail;
      var ie := |head| + |b| + |t|;
      && s[..|head|] == head && s[|head| + |b|..ie] == t && s[ie + |e|..] == tail
  {
  }

  /**
   * The default shader: a head free of `{`, the marker block, any tail.  With
   * brace-free texture names the block becomes one sampler declaration per
   * name, in order, and the rest of the shader is kept verbatim.
   */
  lemma DefaultShaderExpansion(head: string, tail: string, tokens: seq<string>)
    requires '{' !in head && BraceFree(tokens)
    ensures Expandable(TexturesName, tokens)
    ensures ReplaceTokens(head + TexturesBegin + SamplerTemplate + TexturesEnd + tail,
                          TexturesBegin, TexturesName, TexturesEnd, tokens)
         == head + Declarations(tokens) + tail
  {
    MarkerFacts();
    DefaultBlockMarkers(head, tail);
    ExpandSamplers(tokens);
    BlockAt(head, TexturesBegin, SamplerTemplate, TexturesEnd, tail, TexturesName, |head| + 36, tokens);
  }
}

=== FILE: wrappers.dfy ===
/** Optional values used throughout the model. */
module Wrappers {

  /** A value that may be absent, in place of a null pointer or `npos`. */
  datatype Option<+T> = None | Some(value: T)
}
